=== FILE: README.md ===
# rpi-led-flight-tracker in Dafny

A Dafny model of the pure logic of an ADS-B flight tracker for an LED matrix.
The tracker reads BaseStation (SBS-1) lines from dump1090 and keeps a table of
aircraft. It draws each aircraft on a 128 x 128 matrix as an icon with a
coloured trail, over a background map of runways. Sockets, threads, PIL and
the matrix driver sit around four deterministic cores, and these are what the
model covers:

- **SBS ingestion** (`data_processing.py`), in modules `Text`, `SbsTable` and `Ingest`.
  - `process_msg`: the comma split, the identity in field 4, the fresh `Aircraft`
    with its defaults, the per-type attribute copies and the message counter.
  - The `IndexError` that Python raises on a short line. It is an explicit
    `IndexError` outcome that carries the partly updated table.
  - The line splitter of `receive_data` and the LIFO pop of `process_data`.
- **Live rendering** (`flight_tracker.py`), in modules `Geo`, `LiveMap`, `Colors` and `Trails`.
  - `latlon_to_xy`, with Python's half-to-even `round` and the `(-1, -1)` sentinel.
  - The double-buffer toggle of `create_canvas`.
  - The five-band altitude colour ramp of `get_color_from_altitude`.
  - The trail, connector and icon logic of `draw_aircraft`, whose connector
    test compares the last trail entry's row with the new column and its
    column with the new row (see "## Findings").
  - The call-sign label and the on-canvas filter of `generate_frame`.
  - Drawing calls become a list of `DrawOp` values.
- **Background map geometry** (`static/static_map_generation.py`), in module `StaticMap`.
  - The min/max box.
  - The strict `is_visible`.
  - The map's own `latlon_to_xy`, which takes `abs()` of the offsets and
    scales y by the image width.
  - The runway filter of `get_runways`.
  - The guard of `draw_runway`, which tests `end1[0]` twice and never `end1[1]`.
- **Heading to icon** (`icons/icons.py`), in module `Icons`.
  - The eight headings.
  - `_heading_to_icons`: the first index with the nearest heading wins, and
    there is no 360 -> 0 wrap-around.
  - The heading guard and centring of `plot_icon`.

The model follows the code as written, including its quirks:

- Fields are stored verbatim as strings. There is no arity check, no blank-field
  guard, no timestamp, no eviction and no boolean parsing.
- Colour bands 3 to 5 subtract the gap `key_diff[i-1]`, so two bands leave 0..255.
- The runway guard never tests `end1[1]`.
- The connector of `draw_aircraft` uses crossed axes.
- The background projection scales y by the width.

Floats are modelled as exact reals. `int(255 * (v / m))` is exact division
truncated toward zero.

`FlightTracker` builds its background map with `img_dims = (rows, cols)`. The
background projection's `(width, height)` is therefore `(rows, cols)`.
`StaticMap.StaticAgreesWithLive` shows that the two projections agree on square
images for points north-east of the south-west corner.
`StaticMap.NonSquareImagesDisagree` shows that they differ on a non-square image.

## Model

| member | source | states |
|---|---|---|
| Text.Split | data_processing.py:14 | `str.split` on one character: at least one piece, and no piece contains the separator |
| Text.JoinSplit | data_processing.py:93 | joining the pieces of a split with the same separator gives back the input string |
| Text.SplitJoin | data_processing.py:93 | splitting a join of separator-free pieces gives back exactly those pieces |
| Text.SplitCount | data_processing.py:93 | a split yields one more piece than the string has separators |
| Text.StripSpaces | flight_tracker.py:300 | `strip(' ')` is the slice that starts after the leading spaces, is followed only by spaces, and neither starts nor ends with a space |
| Text.StripSpacesIdempotent | flight_tracker.py:300 | stripping an already stripped call sign changes nothing |
| SbsTable.NewAircraft | data_processing.py:63-75 | a fresh record holds its identity and every attribute at the constructor default: "" for call sign and squawk, 0 for altitude, speed, track and vertical rate, 0.0 for the position, False for the flags |
| SbsTable.Reachable | data_processing.py:20-58 | the index of the first assignment whose field is missing (where `IndexError` is raised); every assignment before it has its field |
| SbsTable.ApplyFromSpec | data_processing.py:20-58 | the assignments of a branch run left to right: they complete exactly when every field exists; an attribute no reached assignment targets keeps its value; each target holds the verbatim field of its last reached assignment |
| SbsTable.WrittenMatchesAssignments | data_processing.py:20-58 | the attribute set of each transmission type is exactly the set of attributes its branch assigns |
| SbsTable.HighestField | data_processing.py:20-58 | every field a branch reads lies between 10 and the type's highest field, and the highest is read last |
| SbsTable.AssignmentsWithinHighestField | data_processing.py:20-58 | a branch completes exactly when the line has more fields than the type's highest field index |
| SbsTable.UnwrittenNotAssigned | data_processing.py:20-58 | no reached assignment targets an attribute outside the type's attribute set |
| SbsTable.AssignmentsDistinct | data_processing.py:20-58 | no branch assigns the same attribute twice |
| SbsTable.ReachedAssignmentsStored | data_processing.py:18-58 | each assignment a branch makes before its first missing field leaves that field's text in its attribute, whether or not the branch completes |
| SbsTable.ProcessFields | data_processing.py:15-61 | fewer than 5 fields fails with the table untouched; otherwise it completes exactly when every field its type reads exists; a completed call counts one message and a failed one none; the identity is a key afterwards, even after a late failure; every other identity keeps its record; attributes the type does not write keep their prior or default values, and so do attributes it would have written after a missing field; on success or failure, every assignment made before the first missing field has stored its field's text, since the record is updated in place; records stay filed under their own identity |
| SbsTable.ProcessMsg | data_processing.py:13-61 | on the raw line: the failure, completion, counter and key facts of `ProcessFields` for the comma split of the line |
| SbsTable.FreshEntryDefaults | data_processing.py:15-75 | a message for an unseen identity files a new record under it, whose attributes outside the type's set are the constructor defaults |
| SbsTable.CompletedStoresFieldsVerbatim | data_processing.py:20-58 | after a completed message, every attribute its type writes holds the field text verbatim, blank or not |
| SbsTable.ApplyIdentification | data_processing.py:20-21 | the type 1 branch on a line with field 10 completes, setting only the call sign |
| SbsTable.TypeOneSetsOnlyCallSign | data_processing.py:20-21 | type 1 completes and the entry equals its prior record with only the call sign replaced by field 10 |
| SbsTable.ApplyVelocity | data_processing.py:38-41 | the type 4 branch on a line with field 16 completes, setting ground speed, track and vertical rate |
| SbsTable.TypeFourSetsOnlyVelocity | data_processing.py:38-41 | type 4 completes and the entry equals its prior record with exactly ground speed, track and vertical rate replaced by fields 12, 13 and 16 |
| SbsTable.ApplyAllCallReply | data_processing.py:57-58 | the type 8 branch on a line with field 21 completes, setting only the on-ground flag |
| SbsTable.TypeEightSetsOnlyOnGround | data_processing.py:57-58 | type 8 completes and the entry equals its prior record with only the on-ground flag replaced by field 21 |
| SbsTable.UnknownTypeOnlyRegisters | data_processing.py:15-61 | a discriminant outside "1".."8" leaves the (possibly new) record as it was, but still files it and counts the message |
| SbsTable.ApplySurfaceShort | data_processing.py:23-29 | on a line with 16 to 21 fields the type 2 branch writes its first five attributes and then fails |
| SbsTable.TypeTwoShortLinePartialUpdate | data_processing.py:23-29 | a type 2 line with 16 to 21 fields raises, leaves the counter alone, and still stores the entry with altitude, speed, track, latitude and longitude updated |
| SbsTable.LastCallSignWins | data_processing.py:20-21 | of two type 1 messages for one identity the second's call sign stands, "" when its field is blank, and both are counted |
| Ingest.DropLast | data_processing.py:91 | `s[:-1]` undoes appending a character: putting the last character back gives the string again, and "" stays "" |
| Ingest.ChunkLines | data_processing.py:91-93 | a chunk's lines: at least one, none containing a newline, and joined with newlines they give back the chunk minus its last character |
| Ingest.ChunkLinesRoundTrip | data_processing.py:91-93 | newline-free lines, joined and followed by any one character, split back into the same lines |
| Ingest.ChunkLineCount | data_processing.py:91-93 | a chunk yields one more line than it has newlines before its last character |
| Ingest.Receive | data_processing.py:95-96 | the chunk's lines are appended at the right end of the queue, in order, after the old contents |
| Ingest.ProcessStep | data_processing.py:101-105 | an empty queue does nothing; otherwise the last appended line is removed and processed, and the rest of the queue is left as it was |
| Ingest.StepAfterReceiveTakesLastLine | data_processing.py:93-104 | the step right after a chunk arrives processes that chunk's last line |
| Ingest.PopOrder | data_processing.py:104 | repeated pops hand out a queue's lines newest first |
| Ingest.ProcessLines | data_processing.py:99-105 | a run of `process_msg` calls makes at least one call on a non-empty list; a full run counts every line, a failed one every line before the failure |
| Ingest.ProcessLinesKeyed | data_processing.py:99-105 | a run keeps every record filed under its own identity |
| Ingest.RunFromEmptyTable | data_processing.py:7-10 | from a fresh `Aircraft_Table()` (no aircraft, no messages) a run's counter equals the lines it completed, and every record is filed under its own identity |
| Ingest.Drain | data_processing.py:99-105 | draining an idle queue consumes it from the right (LIFO), leaves a prefix, counts every consumed line but a failing last one, and pops at least one line exactly when the queue is non-empty |
| Ingest.ProcessLinesAppend | data_processing.py:99-105 | a run over two parts is the run over the first, continued over the second from the table it left, unless it failed first |
| Ingest.ProcessLinesPrefix | data_processing.py:99-105 | the lines a run took, run on their own, give the same count and outcome |
| Ingest.ProcessLinesLastCall | data_processing.py:99-105 | a run stops at the first failure: for a run of c calls, every line before its last call was processed without error, and its outcome is `process_msg` of its last line on the table those lines left |
| Ingest.DrainLastCall | data_processing.py:99-105 | the same for a drain, in pop order: the popped lines before the last went through `process_msg` without error, and the outcome is `process_msg` of the last popped line |
| Geo.RoundHalfEven | flight_tracker.py:153-154 | Python `round`: within one half of its argument, and even on a tie |
| Geo.RoundHalfEvenUnique | flight_tracker.py:153-154 | those two properties determine `round` completely |
| Geo.RoundMonotone | flight_tracker.py:153-154 | rounding preserves order |
| Geo.ProportionInterior | flight_tracker.py:147-148 | a coordinate is strictly inside its span exactly when its proportion is strictly between 0 and 1 |
| Geo.ProportionAtBounds | flight_tracker.py:147-148 | the low bound has proportion 0 and the high bound 1 |
| LiveMap.LiveProject | flight_tracker.py:144-163 | the result is the sentinel or a pixel inside the cols x rows grid; an on-grid pixel is within one half of the exact scaled position on both axes, with y flipped; and a point whose exact position lies strictly inside the grid's rounding band is never the sentinel |
| LiveMap.ColumnOfCentreLon | flight_tracker.py:147-153 | the longitude whose exact scaled position is column x rounds back to column x |
| LiveMap.RowOfCentreLat | flight_tracker.py:148-155 | the latitude whose exact flipped, scaled position is row y yields row y |
| LiveMap.LiveProjectRoundTrip | flight_tracker.py:144-163 | every grid pixel is hit: the point whose exact position is that pixel projects back to it |
| LiveMap.CentreMapsToCentreCell | flight_tracker.py:144-163 | the box centre projects to (cols/2, rows/2) on an even grid, e.g. (64, 64) on 128 x 128 |
| LiveMap.SouthEdgeIsOffscreen | flight_tracker.py:148-161 | because of the y flip, a point on the southern edge yields the sentinel |
| LiveMap.EastEdgeIsOffscreen | flight_tracker.py:147-158 | a point on the eastern edge yields the sentinel |
| LiveMap.CanvasSchedule | flight_tracker.py:165-180 | n successive `create_canvas` calls draw into n canvases, alternating between canvas 0 and canvas 1 and starting from the current toggle |
| Colors.Scale8 | flight_tracker.py:195 | `int(255 * (v / m))`: the quotient truncated toward zero, on both signs |
| Colors.KeyDiffIsGaps | flight_tracker.py:185-186 | `key_diff` holds the gaps between consecutive `key_alts` |
| Colors.AltitudeColor | flight_tracker.py:182-230 | altitude 0 is grey (64, 64, 64); each band fixes two channels and bounds the varying one, which stays in byte range in bands 1, 2 and 5 but not in 3 and 4 |
| Colors.RampChannels | flight_tracker.py:202-225 | in bands 1 to 5 the varying channel is the floor of its linear formula (for negative altitudes in band 1, truncated toward zero: green is minus the floor of 255 * -alt / 2000), e.g. floor(255 * (alt - 3000) / 5000) for blue in band 3 and floor(255 * (alt - 10000) / 30000) for red in band 5 below 40000 ft |
| Colors.TopBandClamps | flight_tracker.py:223-230 | in the top band red is 255 exactly from 40000 ft up |
| Colors.ChannelsInByteRange | flight_tracker.py:199-230 | all channels lie in 0..255 exactly for altitudes -7..8019, 10000..15039 and from 20000 up |
| Colors.UnclampedBandsLeaveByteRange | flight_tracker.py:212-221 | witnesses: 9999 ft gives blue 356, 19999 ft gives green -127, and 5000 ft starts blue at 102 |
| Colors.RampsAreMonotone | flight_tracker.py:202-230 | within each band the varying channel moves one way only |
| Icons.HeadingsAreMultiplesOf45 | icons/icons.py:14 | there are eight headings, the i-th being 45 * i |
| Icons.Scan | icons/icons.py:59-64 | the loop returns an index below 8 that minimises the difference and has no earlier index as close (the strict `<` keeps the first minimum), or 0 when no difference is below 360 |
| Icons.HeadingToIcon | icons/icons.py:55-66 | the chosen icon is the first nearest heading |
| Icons.HeadingBuckets | icons/icons.py:55-66 | for headings 0..360 the icon is the 45-degree bucket centred on the heading, with 293..360 all in the last bucket |
| Icons.NoWrapAround | icons/icons.py:55-66 | headings 338..360 pick the 315 icon, not the 0 one |
| Icons.PlotIcon | icons/icons.py:35-51 | nothing is drawn exactly for headings outside 0..360; otherwise the chosen icon covers the position, as nearly centred as floor division allows |
| Trails.TrailFrom | flight_tracker.py:256-274 | one draw call per trail entry: the first against the given predecessor, each later one against the entry before it; only points and lines |
| Trails.TrailOps | flight_tracker.py:256-274 | the first entry is a point; each later entry is a line from its predecessor when more than one pixel apart on either axis, a point otherwise |
| Trails.TrailOpsExtend | flight_tracker.py:256-291 | drawing a trail extended by one entry draws the old trail and then exactly one more call |
| Trails.AppendToTrail | flight_tracker.py:286-291 | the trail grows by the new position exactly when it is empty or the position moved, always ends at the position, and keeps having no consecutive repeats |
| Trails.RunTrailNoStutter | flight_tracker.py:286-291 | over any number of frames a trail never holds two consecutive equal positions and ends at the last drawn position |
| Trails.IconOps | icons/icons.py:35-51 | `plot_icon` draws one bitmap exactly when the heading is in 0..360, and nothing else: the icon `PlotIcon` picks for the heading, at its centred corner, in the aircraft's colour |
| Trails.DrawAircraft | flight_tracker.py:251-294 | the old trail is drawn first; a connector line to the new position follows exactly when the crossed-axes test of lines 276-281 holds; the icon comes last exactly when the heading is valid, and it is `PlotIcon`'s icon at its centred corner in the altitude colour; the call count is the trail's length plus one for each of the two, independently of each other; no text is drawn; the trail is updated as `AppendToTrail` says |
| Trails.ConnectorCrossesAxes | flight_tracker.py:276-281 | as written, the path from (0, 10) to (10, 0) is left unbridged, and touching positions (10, 20) and (11, 20) get a line |
| Trails.BridgedDrawing | flight_tracker.py:256-281 | drawing the trail and then a connector whenever the last step is more than one pixel bridges every such step of the flown path |
| Trails.DrawAircraftBridged | flight_tracker.py:251-294 | with the connector test on the same axes as the trail loop, every step of the flown path longer than one pixel is drawn as a line joining its ends, and touching steps get none: the call count is the trail's length plus one for a step that is apart and one for a valid heading |
| Trails.DrawOne | flight_tracker.py:239-246 | an aircraft projecting to the sentinel is skipped with its trail untouched; one on the canvas gets exactly `draw_aircraft`'s calls (trail, connector, icon) first, with its trail appended, and with the stripped call-sign label last exactly when labels are on |
| Trails.TrailOpsOnCanvas | flight_tracker.py:256-274 | a trail on the canvas is drawn on the canvas |
| Trails.DrawAircraftOnCanvas | flight_tracker.py:251-294 | at an on-canvas position with an on-canvas trail, only icons can reach off the canvas, and the trail stays on it |
| Trails.DrawOneOnCanvas | flight_tracker.py:239-246 | the same for one iteration of the frame loop: its points, lines and label anchor stay on the canvas, while icons and label text can reach off it |
| Trails.GenerateFrame | flight_tracker.py:232-249 | a frame advances each aircraft on its own, changing only its trail |
| Trails.GenerateFrameOne | flight_tracker.py:239-247 | a frame of one aircraft draws exactly that aircraft's loop iteration |
| Trails.GenerateFrameAppend | flight_tracker.py:239-247 | the frame is drawn in the order of the listed aircraft: the calls for earlier aircraft come first, so later ones paint over them |
| Trails.FrameTrails | flight_tracker.py:239-246 | after a frame an aircraft off the canvas keeps its trail, and one on it has its position appended unless it did not move |
| Trails.FrameOnCanvas | flight_tracker.py:232-249 | when every trail starts on the canvas, a frame keeps its points, lines and label anchors on it (icons and label text can reach off it), and every trail stays on it |
| StaticMap.BoxFromCorners | static/static_map_generation.py:39-43 | the box is ordered by construction, its bounds are the corners' coordinates, and it has positive spans exactly when the corners differ on both axes |
| StaticMap.BoxFromCornersSymmetric | static/static_map_generation.py:39-43 | the order of the two corners does not matter |
| StaticMap.IsVisible | static/static_map_generation.py:99-103 | `is_visible`: a visible point needs a box with positive spans, and lies strictly between 0 and 1 of the way across it on both axes |
| StaticMap.VisibleIffInteriorProportions | static/static_map_generation.py:99-103 | `is_visible` holds exactly when both proportions lie strictly between 0 and 1 |
| StaticMap.ReachAboveLow | static/static_map_generation.py:110-113 | from the low bound up, the absolute-value fraction equals the live projection's proportion |
| StaticMap.ReachMirror | static/static_map_generation.py:112-113 | a coordinate and its reflection about the low bound have the same fraction |
| StaticMap.StaticProject | static/static_map_generation.py:109-128 | the result is the sentinel or a pixel inside the image, within one half of the exact position, with the row scaled by the image width; a point whose exact position lies strictly inside the image's rounding band is never the sentinel |
| StaticMap.StaticAgreesWithLive | static/static_map_generation.py:109-128 | on a square image, for points north-east of the south-west corner, the background projection equals the live one |
| StaticMap.VisibleAgreesWithLive | static/static_map_generation.py:109-128 | in particular every visible point projects alike on both maps of a square image |
| StaticMap.StaticProjectMirror | static/static_map_generation.py:112-113 | a point and its reflection about the southern or western edge project to the same pixel |
| StaticMap.NonSquareImagesDisagree | static/static_map_generation.py:115-126 | with the tracker's pairing of a 4-column, 2-row grid with a background of width 2 and height 4, the unit-box point (0.75, 0.5) lands at (1, 2) on the background and at (2, 0) on the live grid |
| StaticMap.VisibleCanBeOffscreen | static/static_map_generation.py:99-128 | a visible point can still round onto the column past the last, so visible does not imply on the image |
| StaticMap.GetRunways | static/static_map_generation.py:77-92 | a row is kept exactly when both of its ends are visible |
| StaticMap.GetRunwaysAppend | static/static_map_generation.py:83-90 | the filter works row by row and keeps input order: filtering a concatenation concatenates the filtered parts |
| StaticMap.GetRunwaysIdempotent | static/static_map_generation.py:83-90 | filtering the kept rows again keeps them all |
| StaticMap.DrawsRunway | static/static_map_generation.py:94-96 | `draw_runway`'s guard refuses the sentinel at either end |
| StaticMap.GuardIgnoresFirstRow | static/static_map_generation.py:94-96 | the guard accepts a first end with a negative row |
| StaticMap.GuardOnProjectedEnds | static/static_map_generation.py:94-96 | on projector outputs the guard holds exactly when neither end is the sentinel |
| StaticMap.RunwayLines | static/static_map_generation.py:61-71 | every drawn line joins the projected ends of one of the runways and lies on the image, and every runway the guard accepts is drawn |
| StaticMap.GenerateStaticMap | static/static_map_generation.py:53-74 | every line of the background map lies on the image and belongs to a runway with both ends visible |
| StaticMap.DrawnRunways | static/static_map_generation.py:53-96 | a runway with both ends visible and both projected onto the image is drawn |

## Left out

- Sockets, `recv`, the worker threads and their exit flags, the interactive
  REPL and its PrettyTable output: I/O and concurrency. The model keeps only
  the pure step inside each loop.
- UTF-8 decoding of received bytes: chunks are modelled as already decoded strings.
- The geopy corner computation in both constructors: a foreign library call.
  The box's bounds are inputs, with positive spans required, because both
  projectors divide by the spans.
- RGBMatrix, PIL images and drawing, fonts, the label's font, anchor and
  white fill, `load_icons` and the icon bitmaps, and the "Invalid Heading"
  message `plot_icon` prints: hardware, image and console I/O. Drawing calls
  are listed as `DrawOp` values, and icons are known by index and size.
- Reading the runways CSV and converting its columns with `float`: file I/O.
  Runways are given as records of two lat/lon ends.
- The stored background image path (`img_path`) and the module-level
  `StaticMap(...)` construction: file I/O and a script-level call.
- The `run_display` loop, its lock, `sleep` and purge counter. Also
  `purge_old_aircraft`, `Receive_Data_Thread`, `Process_Data_Thread` and
  `AIRCRAFT_DICT_LOCK`, which the code references but does not define.
- flight-tracker.py, run_flight_tracker.py and led_matrix_practice.py: a
  superseded prototype built on geopy distances, a configuration script and
  a hardware test.
- IEEE-754 floating point: projections are computed over exact reals. The
  float result of `int(255 * (v / m))` can differ from exact truncation at
  exact-multiple edges.
- numpy's int64 arithmetic in the colour ramp: plain integers, since no
  realistic altitude overflows.
- String-to-number conversion: `process_msg` stores field strings, while the
  renderer reads altitude, track and position as numbers, and the code
  converts nothing. The renderer's inputs are taken as numbers.
- `pos_history` is not an attribute of the `Aircraft` class shown. The trail is
  kept beside the renderer's view of an aircraft (`Trails.TrackedAircraft`).
- The `traces` option, which the code never reads.
- The division by zero of both projectors on a box with an empty span:
  `WellFormed` is required instead.
- SbsTable.ProcessMsg: states only the outcome, counter, key and keying facts
  of the call. The per-record facts are stated on `SbsTable.ProcessFields`,
  which it applies to the comma split of the line.
- The insertion order of the `aircraft_table` dict, which decides which
  aircraft paints over which: the table is a map without order.
  `Trails.GenerateFrame` takes a list `planes` that stands for
  `aircraft_table.keys()` in that order.
- LiveMap.CreateCanvas: the toggle itself carries no contract; its
  behaviour over successive calls is stated by `LiveMap.CanvasSchedule`.

## Findings

| source | as written | input that shows it | evidently intended | confidence | as-written member | corrected member |
|---|---|---|---|---|---|---|
| flight_tracker.py:276-281 | the connector test computes `abs(prev_point[1] - x_pos)` and `abs(prev_point[0] - y_pos)`, comparing the last trail entry's row with the new column and its column with the new row | trail ending at (0, 10), aircraft now at (10, 0): no line joins them; trail ending at (10, 20), now at (11, 20): a line joins touching pixels | the same-axis test of the trail loop (lines 262-265), so that every step longer than one pixel is joined by a line | high, not executed | Trails.ConnectorCrossesAxes | Trails.DrawAircraftBridged |

The as-written test is what `Trails.DrawAircraft` and the frame model use.
`Trails.DrawAircraftBridged` is the same drawing with the intended test, and
it is proved to bridge every step of the flown path.

=== FILE: colors.dfy ===
/** `FlightTracker.get_color_from_altitude` of flight_tracker.py: a five-band
    colour ramp over altitude, with a grey for altitude 0. */
module Colors {

  /** An RGB triple. Channels are plain integers: the ramp as written can
      leave 0..255. */
  datatype Rgb = Rgb(r: int, g: int, b: int)

  /** The grey drawn for altitude 0 (no altitude read yet, or on the ground). */
  const Grey := Rgb(64, 64, 64)

  /** `scale_8bit(val, max_val) = int(255 * (val / max_val))`, computed exactly:
      Python's `int` truncates toward zero, so a negative value rounds up. */
  function Scale8(v: int, m: int): (s: int)
    requires m > 0
    ensures v >= 0 ==> m * s <= 255 * v < m * (s + 1)
    ensures v < 0 ==> m * -s <= 255 * -v < m * (-s + 1)
  {
    if v >= 0 then (255 * v) / m else -((255 * -v) / m)
  }

  /** The band boundaries `key_alts` and their gaps `key_diff`. */
  const KeyAlts: seq<int> := [0, 2000, 5000, 10000, 20000, 50000]
  const KeyDiff: seq<int> := [2000, 3000, 5000, 10000, 30000]

  lemma KeyDiffIsGaps()
    ensures |KeyDiff| == |KeyAlts| - 1
    ensures forall i :: 0 <= i < |KeyDiff| ==> KeyDiff[i] == KeyAlts[i + 1] - KeyAlts[i]
  {
  }

  /** `get_color_from_altitude(alt)`. Bands 3, 4 and 5 subtract the gap
      `key_diff[i-1]` rather than the band's own lower bound, as the source
      does. */
  function AltitudeColor(alt: int): (c: Rgb)
    ensures alt == 0 ==> c == Grey
    ensures alt < 0 ==> c.r == 255 && c.g <= 0 && c.b == 0
    ensures 0 < alt < 2000 ==> c.r == 255 && 0 <= c.g < 255 && c.b == 0
    ensures 2000 <= alt < 5000 ==> 0 < c.r <= 255 && c.g == 255 && c.b == 0
    ensures 5000 <= alt < 10000 ==> c.r == 0 && c.g == 255 && 102 <= c.b <= 356
    ensures 10000 <= alt < 20000 ==> c.r == 0 && -127 <= c.g <= 128 && c.b == 255
    ensures 20000 <= alt ==> 85 <= c.r <= 255 && c.g == 0 && c.b == 255
  {
    if alt == 0 then Grey
    else if alt < KeyAlts[1] then Rgb(255, Scale8(alt, KeyDiff[0]), 0)
    else if alt < KeyAlts[2] then Rgb(255 - Scale8(alt - KeyDiff[0], KeyDiff[1]), 255, 0)
    else if alt < KeyAlts[3] then Rgb(0, 255, Scale8(alt - KeyDiff[1], KeyDiff[2]))
    else if alt < KeyAlts[4] then Rgb(0, 255 - Scale8(alt - KeyDiff[2], KeyDiff[3]), 255)
    else
      var v := Scale8(alt - KeyDiff[3], KeyDiff[4]);
      Rgb(if v > 255 then 255 else v, 0, 255)
  }

  /** The channel each band varies is the floor of its linear
      formula: `255 * (alt - offset) / span`, rounded down. */
  lemma RampChannels(alt: int)
    // below zero the quotient is truncated toward zero, so green is the
    // negated floor of the formula on `-alt`
    ensures alt < 0 ==>
              2000 * -AltitudeColor(alt).g <= 255 * -alt < 2000 * (-AltitudeColor(alt).g + 1)
    ensures 0 < alt < 2000 ==>
              2000 * AltitudeColor(alt).g <= 255 * alt < 2000 * (AltitudeColor(alt).g + 1)
    ensures 2000 <= alt < 5000 ==>
              3000 * (255 - AltitudeColor(alt).r) <= 255 * (alt - 2000) < 3000 * (256 - AltitudeColor(alt).r)
    ensures 5000 <= alt < 10000 ==>
              5000 * AltitudeColor(alt).b <= 255 * (alt - 3000) < 5000 * (AltitudeColor(alt).b + 1)
    ensures 10000 <= alt < 20000 ==>
              10000 * (255 - AltitudeColor(alt).g) <= 255 * (alt - 5000) < 10000 * (256 - AltitudeColor(alt).g)
    ensures 20000 <= alt < 40000 ==>
              30000 * AltitudeColor(alt).r <= 255 * (alt - 10000) < 30000 * (AltitudeColor(alt).r + 1)
  {
  }

  /** The ramp's top band saturates: red is clamped at 255 from 40000 ft up. */
  lemma TopBandClamps(alt: int)
    requires alt >= 20000
    ensures AltitudeColor(alt).r == 255 <==> alt >= 40000
  {
  }

  /** Every channel stays in 0..255 exactly on these altitude ranges; below
      -7 ft the green channel goes negative, above 8019 ft the blue one
      passes 255, and above 15039 ft (up to 20000) the green one goes negative. */
  lemma ChannelsInByteRange(alt: int)
    ensures (0 <= AltitudeColor(alt).r <= 255 && 0 <= AltitudeColor(alt).g <= 255 &&
             0 <= AltitudeColor(alt).b <= 255)
            <==> (-7 <= alt <= 8019 || 10000 <= alt <= 15039 || 20000 <= alt)
  {
    var c := AltitudeColor(alt);
    if alt < 0 {
      assert c.g == -Scale8(-alt, 2000);
    }
  }

  /** Witnesses of the unclamped bands and of the jump at 5000 ft. */
  lemma UnclampedBandsLeaveByteRange()
    ensures AltitudeColor(9999) == Rgb(0, 255, 356)
    ensures AltitudeColor(19999) == Rgb(0, -127, 255)
    ensures AltitudeColor(5000) == Rgb(0, 255, 102)
  {
  }

  /** Within each band the varying channel moves one way only. */
  lemma RampsAreMonotone(a1: int, a2: int)
    requires a1 <= a2
    ensures 0 < a1 && a2 < 2000 ==> AltitudeColor(a1).g <= AltitudeColor(a2).g
    ensures 2000 <= a1 && a2 < 5000 ==> AltitudeColor(a1).r >= AltitudeColor(a2).r
    ensures 5000 <= a1 && a2 < 10000 ==> AltitudeColor(a1).b <= AltitudeColor(a2).b
    ensures 10000 <= a1 && a2 < 20000 ==> AltitudeColor(a1).g >= AltitudeColor(a2).g
    ensures 20000 <= a1 ==> AltitudeColor(a1).r <= AltitudeColor(a2).r
  {
  }
}

=== FILE: geo.dfy ===
/** Shared vocabulary of both projectors: pixels, the lat/lon bounding box and
    Python's `round` on the exact reals the model uses for floats. */
module Geo {

  /** A canvas position (column, row). */
  datatype Pixel = Pixel(x: int, y: int)

  /** The `(-1, -1)` sentinel both projectors return for an off-canvas point. */
  const Offscreen := Pixel(-1, -1)

  /** The geographic box the canvas shows. */
  datatype Box = Box(minLat: real, maxLat: real, minLon: real, maxLon: real)

  /** Both spans positive: the projectors divide by them. */
  predicate WellFormed(b: Box)
  {
    b.minLat < b.maxLat && b.minLon < b.maxLon
  }

  function Abs(r: real): real
  {
    if r < 0.0 then -r else r
  }

  function IntAbs(n: int): nat
  {
    if n < 0 then -n else n
  }

  /** Python 3's `round(r)`: the nearest integer, halves going to the even one. */
  function RoundHalfEven(r: real): (n: int)
    ensures (n as real) - 0.5 <= r <= (n as real) + 0.5
    ensures (r == (n as real) - 0.5 || r == (n as real) + 0.5) ==> n % 2 == 0
  {
    var f := r.Floor;
    var d := r - f as real;
    if d < 0.5 then f
    else if d > 0.5 then f + 1
    else if f % 2 == 0 then f
    else f + 1
  }

  /** The two properties of `RoundHalfEven` pin its result down: any integer
      within one half of `r`, and even on a tie, is `RoundHalfEven(r)`. */
  lemma RoundHalfEvenUnique(r: real, m: int)
    requires (m as real) - 0.5 <= r <= (m as real) + 0.5
    requires (r == (m as real) - 0.5 || r == (m as real) + 0.5) ==> m % 2 == 0
    ensures m == RoundHalfEven(r)
  {
  }

  /** Whole numbers round to themselves. */
  lemma RoundWhole(k: int)
    ensures RoundHalfEven(k as real) == k
  {
    RoundHalfEvenUnique(k as real, k);
  }

  /** Rounding never reverses the order of two values. */
  lemma RoundMonotone(a: real, b: real)
    requires a <= b
    ensures RoundHalfEven(a) <= RoundHalfEven(b)
  {
  }

  /** A fraction of the span scaled to `n` pixels. */
  function Scale(f: real, n: int): real
  {
    f * n as real
  }

  /** Position of `v` within `[lo, hi]` as a fraction of the span. */
  function Proportion(v: real, lo: real, hi: real): real
    requires lo < hi
  {
    (v - lo) / (hi - lo)
  }

  /** A value strictly between the bounds has a proportion strictly between
      0 and 1, and only then. */
  lemma ProportionInterior(v: real, lo: real, hi: real)
    requires lo < hi
    ensures lo < v < hi <==> 0.0 < Proportion(v, lo, hi) < 1.0
  {
    QuotientPositive(v - lo, hi - lo);
    QuotientBelowOne(v - lo, hi - lo);
  }

  lemma QuotientPositive(a: real, d: real)
    requires d > 0.0
    ensures a / d > 0.0 <==> a > 0.0
  {
    var q := a / d;
    assert q * d == a;
    if q > 0.0 {
      assert q * d > 0.0;
    }
  }

  lemma QuotientBelowOne(a: real, d: real)
    requires d > 0.0
    ensures a / d < 1.0 <==> a < d
  {
    var q := a / d;
    assert q * d == a;
    if q < 1.0 {
      assert (1.0 - q) * d > 0.0;
    }
  }

  /** The low bound sits at proportion 0, the high bound at 1. */
  lemma ProportionAtBounds(lo: real, hi: real)
    requires lo < hi
    ensures Proportion(lo, lo, hi) == 0.0
    ensures Proportion(hi, lo, hi) == 1.0
  {
    QuotientBelowOne(hi - lo, hi - lo);
    QuotientAboveOne(hi - lo, hi - lo);
  }

  lemma QuotientAboveOne(a: real, d: real)
    requires d > 0.0
    ensures a / d > 1.0 <==> a > d
  {
    var q := a / d;
    assert q * d == a;
    if q > 1.0 {
      assert (q - 1.0) * d > 0.0;
    }
  }

  lemma QuotientOfProduct(q: real, d: real)
    requires d > 0.0
    ensures (q * d) / d == q
  {
  }
}

=== FILE: icons.dfy ===
/** Heading-based icon choice of icons/icons.py: `AircraftIcon.headings`,
    `_heading_to_icons` and the guard and centring of `plot_icon`. */
module Icons {
  import opened Geo
  import opened Optional

  /** `AircraftIcon.headings`: the heading each of the eight icons shows. */
  const Headings: seq<int> := [0, 45, 90, 135, 180, 225, 270, 315]

  lemma HeadingsAreMultiplesOf45()
    ensures |Headings| == 8
    ensures forall i :: 0 <= i < 8 ==> Headings[i] == 45 * i
  {
  }

  /** `abs(self.headings[i] - heading)`. */
  function Diff(i: nat, heading: int): nat
    requires i < 8
  {
    IntAbs(Headings[i] - heading)
  }

  /** What the loop of `_heading_to_icons` knows after looking at indices
      below `i`: nothing beat the start value 360 yet, or `minInd` is the
      first index with the smallest difference seen so far. */
  predicate ScanInvariant(heading: int, i: nat, minDiff: int, minInd: nat)
    requires i <= 8
  {
    || (minDiff == 360 && minInd == 0 && forall j :: 0 <= j < i ==> Diff(j, heading) >= 360)
    || (minInd < i && minDiff == Diff(minInd, heading) && minDiff < 360
        && (forall j :: 0 <= j < i ==> Diff(j, heading) >= minDiff)
        && (forall j :: 0 <= j < minInd ==> Diff(j, heading) > minDiff))
  }

  /** The loop of `_heading_to_icons` from index `i` on. The strict `<`
      keeps the first index of a tie. */
  function Scan(heading: int, i: nat, minDiff: int, minInd: nat): (r: nat)
    requires i <= 8 && minInd < 8
    requires ScanInvariant(heading, i, minDiff, minInd)
    ensures r < 8
    ensures (exists j :: 0 <= j < 8 && Diff(j, heading) < 360) ==>
              (forall j :: 0 <= j < 8 ==> Diff(r, heading) <= Diff(j, heading)) &&
              (forall j :: 0 <= j < r ==> Diff(j, heading) > Diff(r, heading))
    ensures (forall j :: 0 <= j < 8 ==> Diff(j, heading) >= 360) ==> r == 0
    decreases 8 - i
  {
    if i == 8 then minInd
    else if Diff(i, heading) < minDiff then
      assert ScanInvariant(heading, i + 1, Diff(i, heading), i);
      Scan(heading, i + 1, Diff(i, heading), i)
    else
      assert ScanInvariant(heading, i + 1, minDiff, minInd);
      Scan(heading, i + 1, minDiff, minInd)
  }

  /** `_heading_to_icons(heading)`, as the index of the icon it returns: the
      first index whose heading is nearest, or 0 when every difference is at
      least 360. There is no 360 -> 0 wrap-around. */
  function HeadingToIcon(heading: int): (r: nat)
    ensures r < 8
    ensures (exists j :: 0 <= j < 8 && Diff(j, heading) < 360) ==>
              (forall j :: 0 <= j < 8 ==> Diff(r, heading) <= Diff(j, heading)) &&
              (forall j :: 0 <= j < r ==> Diff(j, heading) > Diff(r, heading))
    ensures (forall j :: 0 <= j < 8 ==> Diff(j, heading) >= 360) ==> r == 0
  {
    Scan(heading, 0, 360, 0)
  }

  /** For every heading `plot_icon` accepts, the icon is the 45-degree bucket
      centred on the heading, with everything from 293 to 360 in the last one. */
  lemma {:induction false} HeadingBuckets(heading: int)
    requires 0 <= heading <= 360
    ensures HeadingToIcon(heading) == if (heading + 22) / 45 < 7 then (heading + 22) / 45 else 7
  {
    HeadingsAreMultiplesOf45();
    var k := if (heading + 22) / 45 < 7 then (heading + 22) / 45 else 7;
    var r := HeadingToIcon(heading);
    assert Diff(1, heading) < 360;
    forall j | 0 <= j < 8 && j != k
      ensures Diff(k, heading) < Diff(j, heading)
    {
    }
    assert Diff(r, heading) <= Diff(k, heading);
  }

  /** No wrap-around: headings from 338 to 360 pick the 315 icon, not the 0 one. */
  lemma NoWrapAround(heading: int)
    requires 338 <= heading <= 360
    ensures HeadingToIcon(heading) == 7
  {
    HeadingBuckets(heading);
  }

  /** Where `plot_icon` draws: which icon, and its top-left corner. */
  datatype Placement = Placement(icon: nat, corner: Pixel)

  /** `plot_icon(pos, color, heading, frame_draw)`: headings outside 0..360
      draw nothing; otherwise the chosen icon, of size `sizes[i]` (width,
      height), is centred on `pos` with floor division. */
  function PlotIcon(pos: Pixel, sizes: seq<(nat, nat)>, heading: int): (r: Option<Placement>)
    requires |sizes| == 8
    ensures r.None? <==> heading < 0 || heading > 360
    ensures r.Some? ==> r.value.icon == HeadingToIcon(heading)
    // the icon covers `pos`, as close to centred as whole pixels allow
    ensures r.Some? ==>
              var (w, h) := sizes[r.value.icon];
              var c := r.value.corner;
              (w > 0 ==> c.x <= pos.x < c.x + w && 0 <= (pos.x - c.x) - (c.x + w - 1 - pos.x) <= 1) &&
              (h > 0 ==> c.y <= pos.y < c.y + h && 0 <= (pos.y - c.y) - (c.y + h - 1 - pos.y) <= 1)
  {
    if heading > 360 || heading < 0 then None
    else
      var i := HeadingToIcon(heading);
      Some(Placement(i, Pixel(pos.x - sizes[i].0 / 2, pos.y - sizes[i].1 / 2)))
  }
}

=== FILE: ingest.dfy ===
/** The two pure steps inside the worker loops of data_processing.py: the line
    splitter of `receive_data` and one iteration of `process_data`. */
module Ingest {
  import opened Text
  import opened SbsTable

  /** Python's `s[:-1]`: `s` without its last character ("" stays ""). */
  function DropLast(s: string): (r: string)
    // putting the last character back gives the string again
    ensures |s| > 0 ==> r + [s[|s| - 1]] == s
    ensures |s| == 0 ==> r == []
  {
    if |s| == 0 then s else s[..|s| - 1]
  }

  /** The lines `receive_data` takes from one decoded chunk: drop its last
      character, then split at '\n'. No line holds a '\n', and joining the
      lines with '\n' gives back the chunk minus its last character. */
  function ChunkLines(chunk: string): (lines: seq<string>)
    ensures |lines| >= 1
    ensures forall k :: 0 <= k < |lines| ==> '\n' !in lines[k]
    ensures Join(lines, '\n') == DropLast(chunk)
  {
    JoinSplit(DropLast(chunk), '\n');
    Split(DropLast(chunk), '\n')
  }

  /** The chunk splitter is the inverse of joining with '\n': any non-empty
      list of newline-free lines, joined and followed by one more character,
      comes back unchanged. */
  lemma ChunkLinesRoundTrip(lines: seq<string>, terminator: char)
    requires |lines| >= 1
    requires forall k :: 0 <= k < |lines| ==> '\n' !in lines[k]
    ensures ChunkLines(Join(lines, '\n') + [terminator]) == lines
  {
    var chunk := Join(lines, '\n') + [terminator];
    assert DropLast(chunk) == Join(lines, '\n');
    SplitJoin(lines, '\n');
  }

  /** A chunk yields one more line than it has newlines before its last character. */
  lemma ChunkLineCount(chunk: string)
    ensures |ChunkLines(chunk)| == Occurrences(DropLast(chunk), '\n') + 1
  {
    SplitCount(DropLast(chunk), '\n');
  }

  /** `receive_data` appends a chunk's lines to the right end of the queue. */
  function Receive(queue: seq<string>, chunk: string): (q: seq<string>)
    ensures |q| == |queue| + |ChunkLines(chunk)|
    ensures q[..|queue|] == queue
    ensures q[|queue|..] == ChunkLines(chunk)
  {
    queue + ChunkLines(chunk)
  }

  /** One iteration of `process_data`. */
  datatype Step =
    | Idle                                                   // empty queue: nothing happens
    | Consumed(queue: seq<string>, line: string, outcome: Outcome)

  /** One iteration of `process_data`: with an empty queue nothing happens;
      otherwise `deque.pop()` takes the most recently appended line and
      `process_msg` runs on it. */
  function ProcessStep(queue: seq<string>, t: Table): (r: Step)
    ensures r.Idle? <==> |queue| == 0
    ensures r.Consumed? ==> r.queue + [r.line] == queue && r.outcome == ProcessMsg(t, r.line)
  {
    if |queue| == 0 then Idle
    else
      var last := |queue| - 1;
      assert queue[..last] + [queue[last]] == queue;
      Consumed(queue[..last], queue[last], ProcessMsg(t, queue[last]))
  }

  /** The next step after a chunk arrives handles the chunk's LAST line. */
  lemma StepAfterReceiveTakesLastLine(queue: seq<string>, chunk: string, t: Table)
    ensures ProcessStep(Receive(queue, chunk), t).Consumed?
    ensures ProcessStep(Receive(queue, chunk), t).line == ChunkLines(chunk)[|ChunkLines(chunk)| - 1]
  {
    var q := Receive(queue, chunk);
    var lines := ChunkLines(chunk);
    var step := ProcessStep(q, t);
    assert step.Consumed?;
    assert step.line == (step.queue + [step.line])[|q| - 1];
    assert q[|q| - 1] == q[|queue|..][|lines| - 1];
  }

  /** The order `deque.pop()` hands out the lines of a queue that receives
      nothing meanwhile: newest first. */
  function PopOrder(queue: seq<string>): (r: seq<string>)
    ensures |r| == |queue|
    ensures forall i :: 0 <= i < |queue| ==> r[i] == queue[|queue| - 1 - i]
    decreases |queue|
  {
    if |queue| == 0 then [] else [queue[|queue| - 1]] + PopOrder(queue[..|queue| - 1])
  }

  /** How many lines a run of `process_msg` calls took, and the outcome of
      the last one. */
  datatype Run = Run(count: nat, outcome: Outcome)

  /** `process_msg` on each line in turn, stopping at the first `IndexError`
      (which ends the worker thread). */
  function ProcessLines(t: Table, lines: seq<string>): (r: Run)
    ensures r.count <= |lines|
    // every non-empty run makes at least one call
    ensures r.count == 0 <==> |lines| == 0
    // running to the end counts every line
    ensures r.outcome.Processed? ==>
              r.count == |lines| && r.outcome.table.totalMessages == t.totalMessages + |lines|
    // a failure stops the run, with every line before it counted
    ensures r.outcome.IndexError? ==>
              1 <= r.count && r.outcome.table.totalMessages == t.totalMessages + r.count - 1
    decreases |lines|
  {
    if |lines| == 0 then Run(0, Processed(t))
    else
      var outcome := ProcessMsg(t, lines[0]);
      if outcome.IndexError? then Run(1, outcome)
      else
        var r := ProcessLines(outcome.table, lines[1..]);
        Run(r.count + 1, r.outcome)
  }

  /** A run keeps every record filed under its own identity. */
  lemma {:induction false} ProcessLinesKeyed(t: Table, lines: seq<string>)
    requires Keyed(t)
    ensures Keyed(ProcessLines(t, lines).outcome.table)
    decreases |lines|
  {
    if |lines| > 0 {
      var outcome := ProcessMsg(t, lines[0]);
      if outcome.Processed? {
        ProcessLinesKeyed(outcome.table, lines[1..]);
      }
    }
  }

  /** A run from a fresh `Aircraft_Table()` counts exactly the lines it
      completed, and files each record under its own identity. */
  lemma RunFromEmptyTable(lines: seq<string>)
    ensures var r := ProcessLines(EmptyTable, lines);
            Keyed(r.outcome.table) &&
            r.outcome.table.totalMessages == (if r.outcome.Processed? then r.count else r.count - 1)
  {
    ProcessLinesKeyed(EmptyTable, lines);
  }

  /** A run over two parts is the run over the first, continued over the
      second from the table it left when it got through all of it. */
  lemma {:induction false} ProcessLinesAppend(t: Table, xs: seq<string>, ys: seq<string>)
    ensures ProcessLines(t, xs + ys) ==
              var r := ProcessLines(t, xs);
              if r.outcome.Processed? then
                var r' := ProcessLines(r.outcome.table, ys);
                Run(|xs| + r'.count, r'.outcome)
              else r
    decreases |xs|
  {
    if |xs| == 0 {
      assert xs + ys == ys;
    } else {
      assert (xs + ys)[0] == xs[0];
      assert (xs + ys)[1..] == xs[1..] + ys;
      var o := ProcessMsg(t, xs[0]);
      if o.Processed? {
        ProcessLinesAppend(o.table, xs[1..], ys);
      }
    }
  }

  /** The lines a run took are a run of their own with the same result. */
  lemma ProcessLinesPrefix(t: Table, lines: seq<string>)
    ensures ProcessLines(t, lines[..ProcessLines(t, lines).count]) == ProcessLines(t, lines)
  {
    var r := ProcessLines(t, lines);
    var xs := lines[..r.count];
    var ys := lines[r.count..];
    PrefixSplit(lines, r.count);
    assert ProcessLines(t, xs + ys) == r;
    ProcessLinesAppend(t, xs, ys);
    var before := ProcessLines(t, xs);
    if before.outcome.Processed? {
      var after := ProcessLines(before.outcome.table, ys);
      assert r == Run(|xs| + after.count, after.outcome);
      assert ys == [];
      assert after == Run(0, Processed(before.outcome.table));
    }
  }

  lemma PrefixSplit(lines: seq<string>, k: nat)
    requires k <= |lines|
    ensures lines[..k] + lines[k..] == lines
  {
  }

  /** A run stops at the first failure: when it made `c` calls, every line
      before its last call went through `process_msg` without error, and the run's outcome is
      what `process_msg` made of its last line, given the table those
      earlier lines left. */
  lemma ProcessLinesLastCall(t: Table, lines: seq<string>, c: nat)
    requires ProcessLines(t, lines).count == c >= 1
    ensures var before := ProcessLines(t, lines[..c - 1]);
            before.outcome.Processed? && before.count == c - 1 &&
            ProcessLines(t, lines).outcome == ProcessMsg(before.outcome.table, lines[c - 1])
  {
    var r := ProcessLines(t, lines);
    ProcessLinesPrefix(t, lines);
    var xs := lines[..c - 1];
    var ys := [lines[c - 1]];
    LastSplit(lines, c);
    assert ProcessLines(t, xs + ys) == r;
    ProcessLinesAppend(t, xs, ys);
    var before := ProcessLines(t, xs);
    assert before.count <= c - 1;
    assert before.outcome.Processed?;
    ProcessLinesOne(before.outcome.table, lines[c - 1]);
  }

  /** A run over one line is one `process_msg` call. */
  lemma ProcessLinesOne(t: Table, line: string)
    ensures ProcessLines(t, [line]) == Run(1, ProcessMsg(t, line))
  {
    assert [line][1..] == [];
  }

  lemma LastSplit(lines: seq<string>, c: nat)
    requires 1 <= c <= |lines|
    ensures lines[..c - 1] + [lines[c - 1]] == lines[..c]
  {
  }

  /** What repeated iterations of `process_data` do to a queue that receives
      nothing meanwhile: the lines consumed in order, the lines left, and the
      outcome of the last `process_msg`. */
  datatype Drained = Drained(consumed: seq<string>, remaining: seq<string>, outcome: Outcome)

  function Drain(queue: seq<string>, t: Table): (d: Drained)
    ensures |d.consumed| + |d.remaining| == |queue|
    ensures d.remaining == queue[..|d.remaining|]
    // last in, first out
    ensures forall i :: 0 <= i < |d.consumed| ==> d.consumed[i] == queue[|queue| - 1 - i]
    // draining to the end counts every line
    ensures d.outcome.Processed? ==>
              d.remaining == [] && d.outcome.table.totalMessages == t.totalMessages + |queue|
    // a failure stops the drain, with every line before it counted
    ensures d.outcome.IndexError? ==>
              |d.consumed| >= 1 && d.outcome.table.totalMessages == t.totalMessages + |d.consumed| - 1
    // a non-empty queue always has a line popped
    ensures |d.consumed| == 0 <==> |queue| == 0
  {
    var order := PopOrder(queue);
    var run := ProcessLines(t, order);
    Drained(order[..run.count], queue[..|queue| - run.count], run.outcome)
  }

  /** A drain stops at the first failure: the lines it popped before the
      last went through `process_msg` without error, in pop order, and its
      outcome is what `process_msg` made of the last popped line. */
  lemma DrainLastCall(queue: seq<string>, t: Table)
    ensures |Drain(queue, t).consumed| >= 1 ==>
              var c := Drain(queue, t).consumed;
              var before := ProcessLines(t, c[..|c| - 1]);
              before.outcome.Processed? &&
              Drain(queue, t).outcome == ProcessMsg(before.outcome.table, c[|c| - 1])
  {
    var order := PopOrder(queue);
    var run := ProcessLines(t, order);
    var d := Drain(queue, t);
    assert d.consumed == order[..run.count] && d.outcome == run.outcome;
    if run.count >= 1 {
      ConsumedLastCall(t, order, run.count, d.consumed, d.outcome);
    }
  }

  /** The last-call fact for the lines a run consumed, named apart. */
  lemma ConsumedLastCall(t: Table, order: seq<string>, k: nat, c: seq<string>, out: Outcome)
    requires ProcessLines(t, order).count == k >= 1
    requires c == order[..k] && out == ProcessLines(t, order).outcome
    ensures var before := ProcessLines(t, c[..|c| - 1]);
            before.outcome.Processed? && out == ProcessMsg(before.outcome.table, c[|c| - 1])
  {
    ProcessLinesLastCall(t, order, k);
    TakeSplit(order, k);
  }

  lemma TakeSplit(s: seq<string>, k: nat)
    requires 1 <= k <= |s|
    ensures s[..k][..k - 1] == s[..k - 1] && s[..k][k - 1] == s[k - 1]
  {
  }
}

=== FILE: live_map.dfy ===
/** The live renderer's projection (`FlightTracker.latlon_to_xy`) and its
    double-buffer toggle (`FlightTracker.create_canvas`) from flight_tracker.py. */
module LiveMap {
  import opened Geo

  /** `latlon_to_xy`'s column before the range check: `round(x_prop * cols)`. */
  function Column(b: Box, cols: nat, lon: real): int
    requires WellFormed(b)
  {
    RoundHalfEven(Scale(Proportion(lon, b.minLon, b.maxLon), cols))
  }

  /** `latlon_to_xy`'s row before the range check: `rows - round(y_prop * rows)`. */
  function Row(b: Box, rows: nat, lat: real): int
    requires WellFormed(b)
  {
    rows - RoundHalfEven(Scale(Proportion(lat, b.minLat, b.maxLat), rows))
  }

  /** `latlon_to_xy`: linear interpolation of the point across the box,
      scaled to a `cols x rows` grid, rounded, with the y axis flipped so that
      north is row 0. Points that land off the grid give `Offscreen`. */
  function LiveProject(b: Box, cols: nat, rows: nat, lat: real, lon: real): (p: Pixel)
    requires WellFormed(b)
    ensures p == Offscreen || (0 <= p.x < cols && 0 <= p.y < rows)
    // an on-grid result is the grid point nearest the exact position
    ensures p != Offscreen ==>
              Abs(p.x as real - Proportion(lon, b.minLon, b.maxLon) * cols as real) <= 0.5 &&
              Abs((rows - p.y) as real - Proportion(lat, b.minLat, b.maxLat) * rows as real) <= 0.5
    // and a point whose exact position lies strictly inside the rounding
    // band of the grid is drawn
    ensures -0.5 < Proportion(lon, b.minLon, b.maxLon) * cols as real < cols as real - 0.5 &&
            0.5 < Proportion(lat, b.minLat, b.maxLat) * rows as real < rows as real + 0.5 ==>
              p != Offscreen
  {
    var x := Column(b, cols, lon);
    var y := Row(b, rows, lat);
    if x < 0 || x >= cols then Offscreen
    else if y < 0 || y >= rows then Offscreen
    else Pixel(x, y)
  }

  /** The longitude whose exact scaled position is column `x`: the middle
      of the band of longitudes that round to that column. */
  function ColumnCentreLon(b: Box, cols: nat, x: int): real
    requires cols > 0
  {
    b.minLon + (x as real / cols as real) * (b.maxLon - b.minLon)
  }

  /** The latitude whose exact flipped, scaled position is row `y`: the
      middle of the band of latitudes that land on that row. */
  function RowCentreLat(b: Box, rows: nat, y: int): real
    requires rows > 0
  {
    b.minLat + ((rows - y) as real / rows as real) * (b.maxLat - b.minLat)
  }

  lemma ProportionOfScaled(k: real, lo: real, hi: real)
    requires lo < hi
    ensures Proportion(lo + k * (hi - lo), lo, hi) == k
  {
  }

  lemma ScaleBack(n: int, c: nat)
    requires c > 0
    ensures (n as real / c as real) * c as real == n as real
  {
  }

  lemma ColumnOfCentreLon(b: Box, cols: nat, x: int)
    requires WellFormed(b) && cols > 0
    ensures Column(b, cols, ColumnCentreLon(b, cols, x)) == x
  {
    var k := x as real / cols as real;
    ProportionOfScaled(k, b.minLon, b.maxLon);
    assert Proportion(ColumnCentreLon(b, cols, x), b.minLon, b.maxLon) == k;
    ScaleBack(x, cols);
    assert k * cols as real == x as real;
    RoundWhole(x);
  }

  lemma RowOfCentreLat(b: Box, rows: nat, y: int)
    requires WellFormed(b) && rows > 0
    ensures Row(b, rows, RowCentreLat(b, rows, y)) == y
  {
    var k := (rows - y) as real / rows as real;
    ProportionOfScaled(k, b.minLat, b.maxLat);
    assert Proportion(RowCentreLat(b, rows, y), b.minLat, b.maxLat) == k;
    ScaleBack(rows - y, rows);
    assert k * rows as real == (rows - y) as real;
    RoundWhole(rows - y);
  }

  /** Every on-grid pixel is hit: projecting the point whose exact position
      is a pixel gives that pixel back. */
  lemma LiveProjectRoundTrip(b: Box, cols: nat, rows: nat, p: Pixel)
    requires WellFormed(b)
    requires 0 <= p.x < cols && 0 <= p.y < rows
    ensures LiveProject(b, cols, rows, RowCentreLat(b, rows, p.y), ColumnCentreLon(b, cols, p.x)) == p
  {
    ColumnOfCentreLon(b, cols, p.x);
    RowOfCentreLat(b, rows, p.y);
  }

  /** The centre of the box lands on the centre cell of an even grid, e.g.
      (64, 64) on the 128 x 128 display. */
  lemma CentreMapsToCentreCell(b: Box, cols: nat, rows: nat)
    requires WellFormed(b)
    requires cols > 0 && rows > 0 && cols % 2 == 0 && rows % 2 == 0
    ensures LiveProject(b, cols, rows, (b.minLat + b.maxLat) / 2.0, (b.minLon + b.maxLon) / 2.0)
              == Pixel(cols / 2, rows / 2)
  {
    var c := Pixel(cols / 2, rows / 2);
    LiveProjectRoundTrip(b, cols, rows, c);
    Half(cols);
    Half(rows);
  }

  lemma Half(n: nat)
    requires n > 0 && n % 2 == 0
    ensures (n / 2) as real / n as real == 0.5
    ensures (n - n / 2) as real / n as real == 0.5
  {
    assert (n / 2) as real == 0.5 * n as real;
    assert (n - n / 2) as real == 0.5 * n as real;
    QuotientOfProduct(0.5, n as real);
  }

  /** Points on the southern edge fall off the grid: row `rows` is one past
      the last row. */
  lemma SouthEdgeIsOffscreen(b: Box, cols: nat, rows: nat, lon: real)
    requires WellFormed(b)
    ensures LiveProject(b, cols, rows, b.minLat, lon) == Offscreen
  {
    ProportionAtBounds(b.minLat, b.maxLat);
    RoundWhole(0);
  }

  /** Points on the eastern edge fall off the grid: column `cols` is one past
      the last column. */
  lemma EastEdgeIsOffscreen(b: Box, cols: nat, rows: nat, lat: real)
    requires WellFormed(b)
    ensures LiveProject(b, cols, rows, lat, b.maxLon) == Offscreen
  {
    ProportionAtBounds(b.minLon, b.maxLon);
    RoundWhole(cols);
  }

  /** `create_canvas`'s choice: the canvas to draw into (0 or 1) and the new
      value of `use_second_canvas`. */
  function CreateCanvas(useSecond: bool): (int, bool)
  {
    (if useSecond then 1 else 0, !useSecond)
  }

  /** The canvases `n` successive `create_canvas` calls draw into: they
      alternate, starting with `canvas_1` when `use_second_canvas` is set and
      with `canvas_0` otherwise (as after construction). */
  function CanvasSchedule(useSecond: bool, n: nat): (s: seq<int>)
    ensures |s| == n
    ensures forall i :: 0 <= i < n ==> s[i] == (i + (if useSecond then 1 else 0)) % 2
    decreases n
  {
    if n == 0 then []
    else
      var (canvas, next) := CreateCanvas(useSecond);
      var rest := CanvasSchedule(next, n - 1);
      assert forall i :: 1 <= i < n ==> ([canvas] + rest)[i] == rest[i - 1];
      [canvas] + rest
  }
}

=== FILE: optional.dfy ===
/** A value that may be missing. */
module Optional {
  datatype Option<+T> = None | Some(value: T)
}

=== FILE: sbs_table.dfy ===
/** The aircraft table fed by BaseStation (SBS-1) lines: `Aircraft_Table`,
    `Aircraft` and `process_msg` of data_processing.py. */
module SbsTable {
  import opened Text

  /** An attribute value. The record's defaults are Python ints, floats and
      bools, but `process_msg` stores the raw field strings, so an attribute
      holds whichever kind was last written. */
  datatype Value = IntValue(i: int) | RealValue(r: real) | BoolValue(b: bool) | TextValue(s: string)

  /** One tracked aircraft, keyed by its hex identity. */
  datatype Aircraft = Aircraft(
    hexIdent: string,
    callSign: Value,
    altitude: Value,
    groundSpeed: Value,
    track: Value,
    latitude: Value,
    longitude: Value,
    verticalRate: Value,
    squawk: Value,
    emergency: Value,
    onGround: Value)

  /** The attributes a message can write. */
  datatype Attr =
    | CallSign | Altitude | GroundSpeed | Track | Latitude | Longitude
    | VerticalRate | Squawk | Emergency | OnGround

  /** The constructor's default for each attribute: "" for the call sign and
      squawk, 0 for the integer attributes, 0.0 for the position, False for
      the two flags. */
  function Default(b: Attr): Value
  {
    match b
    case CallSign => TextValue("")
    case Squawk => TextValue("")
    case Altitude => IntValue(0)
    case GroundSpeed => IntValue(0)
    case Track => IntValue(0)
    case VerticalRate => IntValue(0)
    case Latitude => RealValue(0.0)
    case Longitude => RealValue(0.0)
    case Emergency => BoolValue(false)
    case OnGround => BoolValue(false)
  }

  /** `Aircraft(hex_ident)`: a fresh record with every attribute at its default. */
  function NewAircraft(ident: string): (a: Aircraft)
    ensures a.hexIdent == ident
    ensures forall b: Attr :: Get(a, b) == Default(b)
  {
    Aircraft(ident, Default(CallSign), Default(Altitude), Default(GroundSpeed), Default(Track),
             Default(Latitude), Default(Longitude), Default(VerticalRate), Default(Squawk),
             Default(Emergency), Default(OnGround))
  }

  function Get(a: Aircraft, attr: Attr): Value
  {
    match attr
    case CallSign => a.callSign
    case Altitude => a.altitude
    case GroundSpeed => a.groundSpeed
    case Track => a.track
    case Latitude => a.latitude
    case Longitude => a.longitude
    case VerticalRate => a.verticalRate
    case Squawk => a.squawk
    case Emergency => a.emergency
    case OnGround => a.onGround
  }

  /** Attribute assignment `aircraft.<attr> = v`. */
  function Set(a: Aircraft, attr: Attr, v: Value): (r: Aircraft)
    ensures r.hexIdent == a.hexIdent
    ensures forall b: Attr :: Get(r, b) == (if b == attr then v else Get(a, b))
  {
    match attr
    case CallSign => a.(callSign := v)
    case Altitude => a.(altitude := v)
    case GroundSpeed => a.(groundSpeed := v)
    case Track => a.(track := v)
    case Latitude => a.(latitude := v)
    case Longitude => a.(longitude := v)
    case VerticalRate => a.(verticalRate := v)
    case Squawk => a.(squawk := v)
    case Emergency => a.(emergency := v)
    case OnGround => a.(onGround := v)
  }

  /** The table: identity -> aircraft, plus the count of completed messages. */
  datatype Table = Table(aircraft: map<string, Aircraft>, totalMessages: nat)

  /** `Aircraft_Table()`: no aircraft and no messages yet. */
  const EmptyTable := Table(map[], 0)

  /** The transmission types `process_msg` distinguishes by field 1. */
  datatype MsgType =
    | Identification | SurfacePosition | AirbornePosition | AirborneVelocity
    | SurveillanceAlt | SurveillanceId | AirToAir | AllCallReply
    | OtherType   // any other discriminant: no branch is taken

  /** The `elif` chain on `msg_l[1]`. */
  function TypeOf(kind: string): MsgType
  {
    if kind == "1" then Identification
    else if kind == "2" then SurfacePosition
    else if kind == "3" then AirbornePosition
    else if kind == "4" then AirborneVelocity
    else if kind == "5" then SurveillanceAlt
    else if kind == "6" then SurveillanceId
    else if kind == "7" then AirToAir
    else if kind == "8" then AllCallReply
    else OtherType
  }

  /** The assignments each transmission type performs, in source order, as
      (attribute, field index) pairs. */
  function Assignments(m: MsgType): seq<(Attr, nat)>
  {
    match m
    case Identification => [(CallSign, 10)]
    case SurfacePosition =>
      [(Altitude, 11), (GroundSpeed, 12), (Track, 13), (Latitude, 14), (Longitude, 15), (OnGround, 21)]
    case AirbornePosition =>
      [(Altitude, 11), (Latitude, 14), (Longitude, 15), (Emergency, 19), (OnGround, 21)]
    case AirborneVelocity => [(GroundSpeed, 12), (Track, 13), (VerticalRate, 16)]
    case SurveillanceAlt => [(Altitude, 11), (OnGround, 21)]
    case SurveillanceId => [(Altitude, 11), (Squawk, 17), (Emergency, 19), (OnGround, 21)]
    case AirToAir => [(Altitude, 11), (OnGround, 21)]
    case AllCallReply => [(OnGround, 21)]
    case OtherType => []
  }

  /** Index of the first assignment at or after `i` whose field is missing:
      where an `IndexError` would be raised, or `|asg|` when none is. */
  function ReachableFrom(fields: seq<string>, asg: seq<(Attr, nat)>, i: nat): (p: nat)
    requires i <= |asg|
    ensures i <= p <= |asg|
    ensures forall j :: i <= j < p ==> asg[j].1 < |fields|
    ensures p < |asg| ==> asg[p].1 >= |fields|
    decreases |asg| - i
  {
    if i == |asg| || asg[i].1 >= |fields| then i
    else ReachableFrom(fields, asg, i + 1)
  }

  /** Number of leading assignments whose field exists. */
  function Reachable(fields: seq<string>, asg: seq<(Attr, nat)>): (p: nat)
    ensures p <= |asg|
    ensures forall j :: 0 <= j < p ==> asg[j].1 < |fields|
    ensures p < |asg| ==> asg[p].1 >= |fields|
  {
    ReachableFrom(fields, asg, 0)
  }

  /** Result of running a list of assignments on one record: all of them, or
      the record as it stood when an index was out of range. */
  datatype Applied = Completed(aircraft: Aircraft) | Interrupted(aircraft: Aircraft)

  /** Runs the assignments from index `i` on, left to right; each copies its
      field verbatim into its attribute. */
  function ApplyFrom(a: Aircraft, fields: seq<string>, asg: seq<(Attr, nat)>, i: nat): Applied
    requires i <= |asg|
    decreases |asg| - i
  {
    if i == |asg| then Completed(a)
    else if asg[i].1 >= |fields| then Interrupted(a)
    else ApplyFrom(Set(a, asg[i].0, TextValue(fields[asg[i].1])), fields, asg, i + 1)
  }

  /** Running assignments from `i` completes exactly when every remaining
      field exists, leaves every attribute no reached assignment targets
      untouched, and leaves each reached target holding the field of its last
      reached assignment. */
  lemma {:induction false} ApplyFromSpec(a: Aircraft, fields: seq<string>, asg: seq<(Attr, nat)>, i: nat)
    requires i <= |asg|
    ensures ApplyFrom(a, fields, asg, i).aircraft.hexIdent == a.hexIdent
    ensures ApplyFrom(a, fields, asg, i).Completed? <==> ReachableFrom(fields, asg, i) == |asg|
    ensures forall b: Attr ::
              (forall j :: i <= j < ReachableFrom(fields, asg, i) ==> asg[j].0 != b) ==>
                Get(ApplyFrom(a, fields, asg, i).aircraft, b) == Get(a, b)
    ensures forall j :: i <= j < ReachableFrom(fields, asg, i) &&
                        (forall k :: j < k < ReachableFrom(fields, asg, i) ==> asg[k].0 != asg[j].0) ==>
                          Get(ApplyFrom(a, fields, asg, i).aircraft, asg[j].0) == TextValue(fields[asg[j].1])
    decreases |asg| - i
  {
    if i < |asg| && asg[i].1 < |fields| {
      var next := Set(a, asg[i].0, TextValue(fields[asg[i].1]));
      ApplyFromSpec(next, fields, asg, i + 1);
    }
  }

  /** Runs all the assignments, left to right, stopping at the first missing
      field. */
  function ApplyAssignments(a: Aircraft, fields: seq<string>, asg: seq<(Attr, nat)>): Applied
  {
    ApplyFrom(a, fields, asg, 0)
  }

  /** The attributes a transmission type writes. */
  function Written(m: MsgType): set<Attr>
  {
    match m
    case Identification => {CallSign}
    case SurfacePosition => {Altitude, GroundSpeed, Track, Latitude, Longitude, OnGround}
    case AirbornePosition => {Altitude, Latitude, Longitude, Emergency, OnGround}
    case AirborneVelocity => {GroundSpeed, Track, VerticalRate}
    case SurveillanceAlt => {Altitude, OnGround}
    case SurveillanceId => {Altitude, Squawk, Emergency, OnGround}
    case AirToAir => {Altitude, OnGround}
    case AllCallReply => {OnGround}
    case OtherType => {}
  }

  /** `Written` lists exactly the attributes the assignments target. */
  lemma WrittenMatchesAssignments(m: MsgType)
    ensures forall b: Attr :: b in Written(m) <==>
              exists j :: 0 <= j < |Assignments(m)| && Assignments(m)[j].0 == b
  {
    var asg := Assignments(m);
    match m
    case Identification =>
      assert asg[0].0 == CallSign;
    case SurfacePosition =>
      assert asg[0].0 == Altitude && asg[1].0 == GroundSpeed && asg[2].0 == Track;
      assert asg[3].0 == Latitude && asg[4].0 == Longitude && asg[5].0 == OnGround;
    case AirbornePosition =>
      assert asg[0].0 == Altitude && asg[1].0 == Latitude && asg[2].0 == Longitude;
      assert asg[3].0 == Emergency && asg[4].0 == OnGround;
    case AirborneVelocity =>
      assert asg[0].0 == GroundSpeed && asg[1].0 == Track && asg[2].0 == VerticalRate;
    case SurveillanceAlt =>
      assert asg[0].0 == Altitude && asg[1].0 == OnGround;
    case SurveillanceId =>
      assert asg[0].0 == Altitude && asg[1].0 == Squawk && asg[2].0 == Emergency && asg[3].0 == OnGround;
    case AirToAir =>
      assert asg[0].0 == Altitude && asg[1].0 == OnGround;
    case AllCallReply =>
      assert asg[0].0 == OnGround;
    case OtherType =>
  }

  /** Highest field index a transmission type reads (4, the identity, when
      the type writes nothing). */
  function HighestField(m: MsgType): (h: nat)
    ensures forall j :: 0 <= j < |Assignments(m)| ==> 10 <= Assignments(m)[j].1 <= h
    ensures |Assignments(m)| > 0 ==> Assignments(m)[|Assignments(m)| - 1].1 == h
  {
    match m
    case Identification => 10
    case AirborneVelocity => 16
    case OtherType => 4
    case _ => 21
  }

  lemma AssignmentsWithinHighestField(m: MsgType, fields: seq<string>)
    requires |fields| >= 5
    ensures Reachable(fields, Assignments(m)) == |Assignments(m)| <==> |fields| > HighestField(m)
  {
    var asg := Assignments(m);
    var p := Reachable(fields, asg);
    if |fields| <= HighestField(m) {
      assert asg[|asg| - 1].1 == HighestField(m);
    }
  }

  /** Every record is stored under its own identity. */
  predicate Keyed(t: Table)
  {
    forall k :: k in t.aircraft ==> t.aircraft[k].hexIdent == k
  }

  /** The record a message for `ident` starts from: the stored one, or a fresh one. */
  function Prior(t: Table, ident: string): Aircraft
  {
    if ident in t.aircraft then t.aircraft[ident] else NewAircraft(ident)
  }

  /** Outcome of `process_msg`: it returned normally, or it raised
      `IndexError`; either way the table as it stands afterwards. */
  datatype Outcome = Processed(table: Table) | IndexError(table: Table)

  /** `process_msg` on a line already split at commas. */
  function ProcessFields(t: Table, f: seq<string>): (r: Outcome)
    // too short to hold an identity: fails before touching the table
    ensures |f| < 5 ==> r == IndexError(t)
    // completes exactly when every field its type reads exists
    ensures r.Processed? <==> |f| >= 5 && |f| > HighestField(TypeOf(f[1]))
    // a completed call counts exactly one message, a failed one none
    ensures r.Processed? ==> r.table.totalMessages == t.totalMessages + 1
    ensures r.IndexError? ==> r.table.totalMessages == t.totalMessages
    // the identity is present afterwards, even after a late failure
    ensures |f| >= 5 ==> r.table.aircraft.Keys == t.aircraft.Keys + {f[4]}
    // every record stays filed under its own identity
    ensures Keyed(t) ==> Keyed(r.table)
    // every other identity keeps its record
    ensures forall k :: k in t.aircraft && (|f| < 5 || k != f[4]) ==>
              k in r.table.aircraft && r.table.aircraft[k] == t.aircraft[k]
    // attributes the type does not write keep their prior (or default) values
    ensures |f| >= 5 ==>
              forall b: Attr :: b !in Written(TypeOf(f[1])) ==>
                Get(r.table.aircraft[f[4]], b) == Get(Prior(t, f[4]), b)
    // and so does every attribute no assignment before the failure reached:
    // those the branch would have written after the missing field included
    ensures |f| >= 5 ==>
              forall b: Attr ::
                (forall j :: 0 <= j < Reachable(f, Assignments(TypeOf(f[1]))) ==>
                   Assignments(TypeOf(f[1]))[j].0 != b) ==>
                  Get(r.table.aircraft[f[4]], b) == Get(Prior(t, f[4]), b)
    // completed or not, every assignment before the first missing field took
    // its field's text: the record is updated in place up to the failure
    ensures |f| >= 5 ==>
              forall j :: 0 <= j < Reachable(f, Assignments(TypeOf(f[1]))) ==>
                Get(r.table.aircraft[f[4]], Assignments(TypeOf(f[1]))[j].0) ==
                TextValue(f[Assignments(TypeOf(f[1]))[j].1])
  {
    if |f| < 5 then IndexError(t)
    else
      var ident := f[4];
      var m := TypeOf(f[1]);
      ReachedAssignmentsStored(Prior(t, ident), f, m);
      AssignmentsWithinHighestField(m, f);
      UnwrittenNotAssigned(m, f);
      ApplyFromSpec(Prior(t, ident), f, Assignments(m), 0);
      match ApplyAssignments(Prior(t, ident), f, Assignments(m))
      case Completed(a) => Processed(Table(t.aircraft[ident := a], t.totalMessages + 1))
      case Interrupted(a) => IndexError(Table(t.aircraft[ident := a], t.totalMessages))
  }

  /** Fields of an SBS line: Python's `msg.split(",")`. */
  function Fields(msg: string): seq<string>
  {
    Split(msg, ',')
  }

  /** `Aircraft_Table.process_msg(msg)`: split the line, then process its fields. */
  function ProcessMsg(t: Table, msg: string): (r: Outcome)
    ensures |Fields(msg)| < 5 ==> r == IndexError(t)
    ensures r.Processed? <==> |Fields(msg)| >= 5 && |Fields(msg)| > HighestField(TypeOf(Fields(msg)[1]))
    ensures r.Processed? ==> r.table.totalMessages == t.totalMessages + 1
    ensures r.IndexError? ==> r.table.totalMessages == t.totalMessages
    ensures |Fields(msg)| >= 5 ==> r.table.aircraft.Keys == t.aircraft.Keys + {Fields(msg)[4]}
    ensures Keyed(t) ==> Keyed(r.table)
  {
    ProcessFields(t, Fields(msg))
  }

  /** A message for an unseen identity files a fresh record under it; every
      attribute its type does not write keeps the constructor's default. */
  lemma FreshEntryDefaults(t: Table, f: seq<string>)
    requires |f| >= 5 && f[4] !in t.aircraft
    ensures f[4] in ProcessFields(t, f).table.aircraft
    ensures ProcessFields(t, f).table.aircraft[f[4]].hexIdent == f[4]
    ensures forall b: Attr :: b !in Written(TypeOf(f[1])) ==>
              Get(ProcessFields(t, f).table.aircraft[f[4]], b) == Default(b)
  {
    var m := TypeOf(f[1]);
    ApplyFromSpec(NewAircraft(f[4]), f, Assignments(m), 0);
  }

  lemma UnwrittenNotAssigned(m: MsgType, fields: seq<string>)
    ensures forall b: Attr :: b !in Written(m) ==>
              forall j :: 0 <= j < Reachable(fields, Assignments(m)) ==> Assignments(m)[j].0 != b
  {
    var asg := Assignments(m);
    WrittenMatchesAssignments(m);
    forall b: Attr, j | b !in Written(m) && 0 <= j < Reachable(fields, asg)
      ensures asg[j].0 != b
    {
    }
  }

  /** Every assignment a type's branch reaches leaves its field's text in
      its attribute, whether or not the branch completes. */
  lemma ReachedAssignmentsStored(a: Aircraft, f: seq<string>, m: MsgType)
    ensures forall j :: 0 <= j < Reachable(f, Assignments(m)) ==>
              Get(ApplyAssignments(a, f, Assignments(m)).aircraft, Assignments(m)[j].0) ==
              TextValue(f[Assignments(m)[j].1])
  {
    AssignmentsDistinct(m);
    ApplyFromSpec(a, f, Assignments(m), 0);
  }

  /** No transmission type writes the same attribute twice. */
  lemma AssignmentsDistinct(m: MsgType)
    ensures forall j, k :: 0 <= j < k < |Assignments(m)| ==> Assignments(m)[j].0 != Assignments(m)[k].0
  {
  }

  /** A completed message stores each field of its type verbatim, blank or not. */
  lemma CompletedStoresFieldsVerbatim(t: Table, f: seq<string>)
    requires |f| >= 5 && |f| > HighestField(TypeOf(f[1]))
    ensures ProcessFields(t, f).Processed?
    ensures forall j :: 0 <= j < |Assignments(TypeOf(f[1]))| ==>
              Get(ProcessFields(t, f).table.aircraft[f[4]], Assignments(TypeOf(f[1]))[j].0)
                == TextValue(f[Assignments(TypeOf(f[1]))[j].1])
  {
    var asg := Assignments(TypeOf(f[1]));
    AssignmentsWithinHighestField(TypeOf(f[1]), f);
    AssignmentsDistinct(TypeOf(f[1]));
    ApplyFromSpec(Prior(t, f[4]), f, asg, 0);
    var applied := ApplyAssignments(Prior(t, f[4]), f, asg);
    assert ProcessFields(t, f).table.aircraft[f[4]] == applied.aircraft;
  }

  /** The identification assignment runs to completion on any record. */
  lemma ApplyIdentification(a: Aircraft, f: seq<string>)
    requires |f| > 10
    ensures ApplyAssignments(a, f, Assignments(Identification)) == Completed(a.(callSign := TextValue(f[10])))
  {
    var asg := Assignments(Identification);
    var a1 := Set(a, CallSign, TextValue(f[10]));
    assert ApplyFrom(a, f, asg, 0) == ApplyFrom(a1, f, asg, 1) == Completed(a1);
  }

  /** Type 1 (identification) changes only the call sign, to field 10. */
  lemma TypeOneSetsOnlyCallSign(t: Table, f: seq<string>)
    requires |f| > 10 && f[1] == "1"
    ensures ProcessFields(t, f).Processed?
    ensures ProcessFields(t, f).table.aircraft[f[4]]
              == Prior(t, f[4]).(callSign := TextValue(f[10]))
  {
    assert TypeOf(f[1]) == Identification;
    ApplyIdentification(Prior(t, f[4]), f);
  }

  /** The three velocity assignments run to completion on any record. */
  lemma ApplyVelocity(a: Aircraft, f: seq<string>)
    requires |f| > 16
    ensures ApplyAssignments(a, f, Assignments(AirborneVelocity))
              == Completed(a.(groundSpeed := TextValue(f[12]), track := TextValue(f[13]),
                              verticalRate := TextValue(f[16])))
  {
    var asg := Assignments(AirborneVelocity);
    var a1 := Set(a, GroundSpeed, TextValue(f[12]));
    var a2 := Set(a1, Track, TextValue(f[13]));
    var a3 := Set(a2, VerticalRate, TextValue(f[16]));
    assert ApplyFrom(a2, f, asg, 2) == ApplyFrom(a3, f, asg, 3) == Completed(a3);
    assert ApplyFrom(a, f, asg, 0) == ApplyFrom(a1, f, asg, 1) == ApplyFrom(a2, f, asg, 2);
  }

  /** Type 4 (airborne velocity) changes exactly ground speed, track and
      vertical rate, to fields 12, 13 and 16. */
  lemma TypeFourSetsOnlyVelocity(t: Table, f: seq<string>)
    requires |f| > 16 && f[1] == "4"
    ensures ProcessFields(t, f).Processed?
    ensures ProcessFields(t, f).table.aircraft[f[4]]
              == Prior(t, f[4]).(groundSpeed := TextValue(f[12]),
                                 track := TextValue(f[13]),
                                 verticalRate := TextValue(f[16]))
  {
    assert TypeOf(f[1]) == AirborneVelocity;
    ApplyVelocity(Prior(t, f[4]), f);
  }

  /** The all-call assignment runs to completion on any record. */
  lemma ApplyAllCallReply(a: Aircraft, f: seq<string>)
    requires |f| > 21
    ensures ApplyAssignments(a, f, Assignments(AllCallReply)) == Completed(a.(onGround := TextValue(f[21])))
  {
    var asg := Assignments(AllCallReply);
    var a1 := Set(a, OnGround, TextValue(f[21]));
    assert ApplyFrom(a, f, asg, 0) == ApplyFrom(a1, f, asg, 1) == Completed(a1);
  }

  /** Type 8 (all-call reply) changes only the on-ground flag, to field 21. */
  lemma TypeEightSetsOnlyOnGround(t: Table, f: seq<string>)
    requires |f| > 21 && f[1] == "8"
    ensures ProcessFields(t, f).Processed?
    ensures ProcessFields(t, f).table.aircraft[f[4]]
              == Prior(t, f[4]).(onGround := TextValue(f[21]))
  {
    assert TypeOf(f[1]) == AllCallReply;
    ApplyAllCallReply(Prior(t, f[4]), f);
  }

  /** A discriminant outside "1".."8" changes no attribute, yet the entry is
      still created (with defaults when new) and the message still counted. */
  lemma UnknownTypeOnlyRegisters(t: Table, f: seq<string>)
    requires |f| >= 5
    requires f[1] !in {"1", "2", "3", "4", "5", "6", "7", "8"}
    ensures ProcessFields(t, f)
              == Processed(Table(t.aircraft[f[4] := Prior(t, f[4])], t.totalMessages + 1))
  {
    assert Assignments(TypeOf(f[1])) == [];
  }

  /** On a line with 16 to 21 fields the surface-position assignments
      stop at field 21, after writing the first five. */
  lemma ApplySurfaceShort(a: Aircraft, f: seq<string>)
    requires 16 <= |f| <= 21
    ensures ApplyAssignments(a, f, Assignments(SurfacePosition))
              == Interrupted(a.(altitude := TextValue(f[11]), groundSpeed := TextValue(f[12]),
                                track := TextValue(f[13]), latitude := TextValue(f[14]),
                                longitude := TextValue(f[15])))
  {
    var asg := Assignments(SurfacePosition);
    var a1 := Set(a, Altitude, TextValue(f[11]));
    var a2 := Set(a1, GroundSpeed, TextValue(f[12]));
    var a3 := Set(a2, Track, TextValue(f[13]));
    var a4 := Set(a3, Latitude, TextValue(f[14]));
    var a5 := Set(a4, Longitude, TextValue(f[15]));
    assert ApplyFrom(a4, f, asg, 4) == ApplyFrom(a5, f, asg, 5) == Interrupted(a5);
    assert ApplyFrom(a2, f, asg, 2) == ApplyFrom(a3, f, asg, 3) == ApplyFrom(a4, f, asg, 4);
    assert ApplyFrom(a, f, asg, 0) == ApplyFrom(a1, f, asg, 1) == ApplyFrom(a2, f, asg, 2);
  }

  /** A type 2 (surface position) line with 16 to 21 fields creates the entry
      and writes altitude, ground speed, track, latitude and longitude, then
      raises at field 21 without counting the message. */
  lemma TypeTwoShortLinePartialUpdate(t: Table, f: seq<string>)
    requires 16 <= |f| <= 21 && f[1] == "2"
    ensures ProcessFields(t, f).IndexError?
    ensures ProcessFields(t, f).table.totalMessages == t.totalMessages
    ensures f[4] in ProcessFields(t, f).table.aircraft
    ensures ProcessFields(t, f).table.aircraft[f[4]]
              == Prior(t, f[4]).(altitude := TextValue(f[11]),
                                 groundSpeed := TextValue(f[12]),
                                 track := TextValue(f[13]),
                                 latitude := TextValue(f[14]),
                                 longitude := TextValue(f[15]))
  {
    assert TypeOf(f[1]) == SurfacePosition;
    ApplySurfaceShort(Prior(t, f[4]), f);
  }

  /** Last writer wins: a second type 1 message for the same identity
      overwrites the call sign, with "" when its field is blank. */
  lemma LastCallSignWins(t: Table, first: string, second: string)
    requires |Fields(first)| > 10 && Fields(first)[1] == "1"
    requires |Fields(second)| > 10 && Fields(second)[1] == "1"
    requires Fields(first)[4] == Fields(second)[4]
    ensures ProcessMsg(ProcessMsg(t, first).table, second).table.aircraft[Fields(first)[4]].callSign
              == TextValue(Fields(second)[10])
    ensures ProcessMsg(ProcessMsg(t, first).table, second).table.totalMessages == t.totalMessages + 2
  {
    TypeOneSetsOnlyCallSign(t, Fields(first));
    TypeOneSetsOnlyCallSign(ProcessMsg(t, first).table, Fields(second));
  }
}

=== FILE: static_map.dfy ===
/** static/static_map_generation.py: the box from the two corner points, the
    visibility test, the background map's own projection, the runway filter
    and the runway guard. */
module StaticMap {
  import opened Geo
  import LiveMap

  /** `img_dims`: the background image's (width, height) in pixels. */
  datatype Dims = Dims(width: nat, height: nat)

  /** A lat/lon point. */
  datatype LatLon = LatLon(lat: real, lon: real)

  function Min(a: real, b: real): real { if a <= b then a else b }
  function Max(a: real, b: real): real { if a <= b then b else a }

  /** The constructor's box: per axis, the smaller and the larger coordinate
      of the two diagonal corners (bearings 45 and 225 from the centre). */
  function BoxFromCorners(c1: LatLon, c2: LatLon): (b: Box)
    ensures b.minLat <= b.maxLat && b.minLon <= b.maxLon
    ensures {b.minLat, b.maxLat} == {c1.lat, c2.lat}
    ensures {b.minLon, b.maxLon} == {c1.lon, c2.lon}
    ensures WellFormed(b) <==> c1.lat != c2.lat && c1.lon != c2.lon
  {
    Box(Min(c1.lat, c2.lat), Max(c1.lat, c2.lat), Min(c1.lon, c2.lon), Max(c1.lon, c2.lon))
  }

  /** Which corner is named first does not matter. */
  lemma BoxFromCornersSymmetric(c1: LatLon, c2: LatLon)
    ensures BoxFromCorners(c1, c2) == BoxFromCorners(c2, c1)
  {
  }

  /** `is_visible`: strictly inside the box on both axes. */
  predicate IsVisible(b: Box, p: LatLon): (v: bool)
    // only a box with positive spans shows anything, and a visible point
    // lies strictly between 0 and 1 of the way across it on both axes
    ensures v ==> WellFormed(b) &&
                  0.0 < Proportion(p.lat, b.minLat, b.maxLat) < 1.0 &&
                  0.0 < Proportion(p.lon, b.minLon, b.maxLon) < 1.0
  {
    if b.minLat < p.lat < b.maxLat && b.minLon < p.lon < b.maxLon then
      ProportionInterior(p.lat, b.minLat, b.maxLat);
      ProportionInterior(p.lon, b.minLon, b.maxLon);
      true
    else false
  }

  /** A visible point is exactly one whose proportions along both axes lie
      strictly between 0 and 1. */
  lemma VisibleIffInteriorProportions(b: Box, p: LatLon)
    requires WellFormed(b)
    ensures IsVisible(b, p) <==>
              (0.0 < Proportion(p.lat, b.minLat, b.maxLat) < 1.0 &&
               0.0 < Proportion(p.lon, b.minLon, b.maxLon) < 1.0)
  {
    ProportionInterior(p.lat, b.minLat, b.maxLat);
    ProportionInterior(p.lon, b.minLon, b.maxLon);
  }

  /** The background projection's fraction along one axis: the distance
      from the low bound, in absolute value, over the span. */
  function Reach(v: real, lo: real, hi: real): real
    requires lo < hi
  {
    Abs(v - lo) / (hi - lo)
  }

  /** From the low bound on, the reach is the live projection's proportion. */
  lemma ReachAboveLow(v: real, lo: real, hi: real)
    requires lo < hi && lo <= v
    ensures Reach(v, lo, hi) == Proportion(v, lo, hi)
  {
  }

  /** A value and its reflection about the low bound reach equally far. */
  lemma ReachMirror(v: real, lo: real, hi: real)
    requires lo < hi
    ensures Reach(2.0 * lo - v, lo, hi) == Reach(v, lo, hi)
  {
    assert Abs((2.0 * lo - v) - lo) == Abs(v - lo);
  }

  /** The background projection's column before the range check. */
  function StaticColumn(b: Box, d: Dims, lon: real): int
    requires WellFormed(b)
  {
    RoundHalfEven(Scale(Reach(lon, b.minLon, b.maxLon), d.width))
  }

  /** The background projection's row before the range check; the scale is
      the image width. */
  function StaticRow(b: Box, d: Dims, lat: real): int
    requires WellFormed(b)
  {
    d.height - RoundHalfEven(Scale(Reach(lat, b.minLat, b.maxLat), d.width))
  }

  /** `StaticMap.latlon_to_xy`: like the live projection, but distances from
      the south-west corner are taken in absolute value and the row is
      scaled by the image WIDTH before being subtracted from the height. */
  function StaticProject(b: Box, d: Dims, p: LatLon): (q: Pixel)
    requires WellFormed(b)
    ensures q == Offscreen || (0 <= q.x < d.width && 0 <= q.y < d.height)
    ensures q != Offscreen ==>
              Abs(q.x as real - Reach(p.lon, b.minLon, b.maxLon) * d.width as real) <= 0.5 &&
              Abs((d.height - q.y) as real - Reach(p.lat, b.minLat, b.maxLat) * d.width as real) <= 0.5
    // and a point whose exact position lies strictly inside the rounding
    // band of the image is drawn
    ensures -0.5 < Reach(p.lon, b.minLon, b.maxLon) * d.width as real < d.width as real - 0.5 &&
            0.5 < Reach(p.lat, b.minLat, b.maxLat) * d.width as real < d.height as real + 0.5 ==>
              q != Offscreen
  {
    var x := StaticColumn(b, d, p.lon);
    var y := StaticRow(b, d, p.lat);
    if x < 0 || x >= d.width then Offscreen
    else if y < 0 || y >= d.height then Offscreen
    else Pixel(x, y)
  }

  /** On a square image and for points north-east of the south-west corner,
      the background projection is the live one. */
  lemma StaticAgreesWithLive(b: Box, w: nat, p: LatLon)
    requires WellFormed(b)
    requires p.lat >= b.minLat && p.lon >= b.minLon
    ensures StaticProject(b, Dims(w, w), p) == LiveMap.LiveProject(b, w, w, p.lat, p.lon)
  {
    ReachAboveLow(p.lat, b.minLat, b.maxLat);
    ReachAboveLow(p.lon, b.minLon, b.maxLon);
    assert StaticColumn(b, Dims(w, w), p.lon) == LiveMap.Column(b, w, p.lon);
    assert StaticRow(b, Dims(w, w), p.lat) == LiveMap.Row(b, w, p.lat);
  }

  /** Every runway end the filter keeps lands where the live map would put
      an aircraft at the same place, when the image is square. */
  lemma VisibleAgreesWithLive(b: Box, w: nat, p: LatLon)
    requires WellFormed(b) && IsVisible(b, p)
    ensures StaticProject(b, Dims(w, w), p) == LiveMap.LiveProject(b, w, w, p.lat, p.lon)
  {
    StaticAgreesWithLive(b, w, p);
  }

  /** The absolute values mirror the plane about the box's southern and
      western edges: a point and its reflection project alike. */
  lemma StaticProjectMirror(b: Box, d: Dims, p: LatLon)
    requires WellFormed(b)
    ensures StaticProject(b, d, LatLon(2.0 * b.minLat - p.lat, p.lon)) == StaticProject(b, d, p)
    ensures StaticProject(b, d, LatLon(p.lat, 2.0 * b.minLon - p.lon)) == StaticProject(b, d, p)
  {
    ReachMirror(p.lat, b.minLat, b.maxLat);
    ReachMirror(p.lon, b.minLon, b.maxLon);
  }

  /** On a non-square display the two projections part ways. The tracker
      pairs a grid of 4 columns and 2 rows with a background of width 2
      (its rows) and height 4 (its columns): in the unit box, (0.75, 0.5)
      lands on (1, 2) in the background and on (2, 0) on the live grid. */
  lemma NonSquareImagesDisagree()
    ensures StaticProject(Box(0.0, 1.0, 0.0, 1.0), Dims(2, 4), LatLon(0.75, 0.5)) == Pixel(1, 2)
    ensures LiveMap.LiveProject(Box(0.0, 1.0, 0.0, 1.0), 4, 2, 0.75, 0.5) == Pixel(2, 0)
  {
    assert RoundHalfEven(1.0) == 1;
    assert RoundHalfEven(2.0) == 2;
    assert RoundHalfEven(1.5) == 2;
  }

  /** Visible is not the same as on the image: rounding can carry a visible
      point onto the column one past the last. */
  lemma VisibleCanBeOffscreen()
    ensures IsVisible(Box(0.0, 1.0, 0.0, 1.0), LatLon(0.5, 0.9))
    ensures StaticProject(Box(0.0, 1.0, 0.0, 1.0), Dims(4, 4), LatLon(0.5, 0.9)) == Offscreen
  {
    assert RoundHalfEven(3.6) == 4;
  }

  /** A runway record: both ends, as the CSV's four decimal columns. */
  datatype Runway = Runway(end1: LatLon, end2: LatLon)

  /** `get_runways` on the rows of the runways file: keep, in order, the
      runways whose two ends are both visible. */
  function GetRunways(b: Box, rows: seq<Runway>): (kept: seq<Runway>)
    ensures |kept| <= |rows|
    ensures forall r :: r in kept <==> r in rows && IsVisible(b, r.end1) && IsVisible(b, r.end2)
    decreases |rows|
  {
    if |rows| == 0 then []
    else
      var rest := GetRunways(b, rows[1..]);
      if IsVisible(b, rows[0].end1) && IsVisible(b, rows[0].end2) then [rows[0]] + rest else rest
  }

  /** The filter works row by row: filtering a file made of two parts is
      filtering each part, in order. */
  lemma {:induction false} GetRunwaysAppend(b: Box, xs: seq<Runway>, ys: seq<Runway>)
    ensures GetRunways(b, xs + ys) == GetRunways(b, xs) + GetRunways(b, ys)
    decreases |xs|
  {
    if |xs| > 0 {
      assert (xs + ys)[1..] == xs[1..] + ys;
      GetRunwaysAppend(b, xs[1..], ys);
    } else {
      assert xs + ys == ys;
    }
  }

  /** Filtering twice keeps the same runways as filtering once. */
  lemma {:induction false} GetRunwaysIdempotent(b: Box, rows: seq<Runway>)
    ensures GetRunways(b, GetRunways(b, rows)) == GetRunways(b, rows)
    decreases |rows|
  {
    if |rows| > 0 {
      GetRunwaysIdempotent(b, rows[1..]);
      var rest := GetRunways(b, rows[1..]);
      if IsVisible(b, rows[0].end1) && IsVisible(b, rows[0].end2) {
        assert ([rows[0]] + rest)[1..] == rest;
      }
    }
  }

  /** `draw_runway`'s guard as written: it tests `end1[0]` twice and never
      `end1[1]`. */
  predicate DrawsRunway(e1: Pixel, e2: Pixel): (v: bool)
    // the sentinel is refused at either end
    ensures v ==> e1 != Offscreen && e2 != Offscreen
  {
    e1.x >= 0 && e1.x >= 0 && e2.x >= 0 && e2.y >= 0
  }

  /** On arbitrary pixels the guard lets a negative first row through... */
  lemma GuardIgnoresFirstRow()
    ensures DrawsRunway(Pixel(0, -1), Pixel(0, 0))
  {
  }

  /** ...but the projector never produces such a pixel, so on its outputs the
      guard means "both ends on the image". */
  lemma GuardOnProjectedEnds(b: Box, d: Dims, p1: LatLon, p2: LatLon)
    requires WellFormed(b)
    ensures DrawsRunway(StaticProject(b, d, p1), StaticProject(b, d, p2)) <==>
              StaticProject(b, d, p1) != Offscreen && StaticProject(b, d, p2) != Offscreen
  {
  }

  /** The two projected ends of a runway. */
  function RunwayEnds(b: Box, d: Dims, r: Runway): (Pixel, Pixel)
    requires WellFormed(b)
  {
    (StaticProject(b, d, r.end1), StaticProject(b, d, r.end2))
  }

  /** A pixel inside the `width x height` image. */
  predicate OnImage(d: Dims, p: Pixel)
  {
    0 <= p.x < d.width && 0 <= p.y < d.height
  }

  /** The grey lines the loop of `generate_static_map` draws for `runways`:
      each line joins the projected ends of one of them, lies on the image,
      and every runway the guard accepts is drawn. */
  function RunwayLines(b: Box, d: Dims, runways: seq<Runway>): (lines: seq<(Pixel, Pixel)>)
    requires WellFormed(b)
    ensures |lines| <= |runways|
    ensures forall ln :: ln in lines ==> OnImage(d, ln.0) && OnImage(d, ln.1)
    ensures forall ln :: ln in lines ==> exists r :: r in runways && ln == RunwayEnds(b, d, r)
    ensures forall r :: r in runways && DrawsRunway(RunwayEnds(b, d, r).0, RunwayEnds(b, d, r).1) ==>
              RunwayEnds(b, d, r) in lines
    decreases |runways|
  {
    if |runways| == 0 then []
    else
      var ends := RunwayEnds(b, d, runways[0]);
      var rest := RunwayLines(b, d, runways[1..]);
      GuardOnProjectedEnds(b, d, runways[0].end1, runways[0].end2);
      assert forall r :: r in runways ==> r == runways[0] || r in runways[1..];
      assert forall r :: r in runways[1..] ==> r in runways;
      if DrawsRunway(ends.0, ends.1) then [ends] + rest else rest
  }

  /** `generate_static_map` without a stored image: the lines of the visible
      runways. */
  function GenerateStaticMap(b: Box, d: Dims, rows: seq<Runway>): (lines: seq<(Pixel, Pixel)>)
    requires WellFormed(b)
    ensures forall ln :: ln in lines ==> OnImage(d, ln.0) && OnImage(d, ln.1)
    ensures forall ln :: ln in lines ==>
              exists r :: r in rows && IsVisible(b, r.end1) && IsVisible(b, r.end2) && ln == RunwayEnds(b, d, r)
  {
    RunwayLines(b, d, GetRunways(b, rows))
  }

  /** A runway whose ends are both visible and both land on the image is
      drawn. */
  lemma DrawnRunways(b: Box, d: Dims, rows: seq<Runway>, r: Runway)
    requires WellFormed(b)
    requires r in rows
    ensures IsVisible(b, r.end1) && IsVisible(b, r.end2) &&
            RunwayEnds(b, d, r).0 != Offscreen && RunwayEnds(b, d, r).1 != Offscreen ==>
              RunwayEnds(b, d, r) in GenerateStaticMap(b, d, rows)
  {
    GuardOnProjectedEnds(b, d, r.end1, r.end2);
  }
}

=== FILE: text.dfy ===
/** Character-sequence helpers: the subset of Python's `str.split`, `str.join`
    and `str.strip` that the SBS reader and the renderer rely on. */
module Text {

  /** Position of the first occurrence of `c` in `s`. */
  function IndexOf(s: string, c: char): (i: nat)
    requires c in s
    ensures i < |s| && s[i] == c
    ensures c !in s[..i]
  {
    if s[0] == c then 0
    else
      var j := IndexOf(s[1..], c);
      assert s[..j + 1] == [s[0]] + s[1..][..j];
      j + 1
  }

  /** Python's `s.split(sep)` for a one-character separator: the pieces between
      separators, always at least one (the empty string splits into `[""]`). */
  function Split(s: string, sep: char): (pieces: seq<string>)
    ensures |pieces| >= 1
    ensures forall k :: 0 <= k < |pieces| ==> sep !in pieces[k]
    decreases |s|
  {
    if sep !in s then [s]
    else
      var i := IndexOf(s, sep);
      [s[..i]] + Split(s[i + 1..], sep)
  }

  /** Python's `sep.join(pieces)`. */
  function Join(pieces: seq<string>, sep: char): string
  {
    if |pieces| == 0 then ""
    else if |pieces| == 1 then pieces[0]
    else pieces[0] + [sep] + Join(pieces[1..], sep)
  }

  /** Number of occurrences of `c` in `s`. */
  function Occurrences(s: string, c: char): nat
  {
    if |s| == 0 then 0
    else (if s[0] == c then 1 else 0) + Occurrences(s[1..], c)
  }

  lemma OccurrencesAppend(a: string, b: string, c: char)
    ensures Occurrences(a + b, c) == Occurrences(a, c) + Occurrences(b, c)
  {
    if |a| > 0 {
      assert (a + b)[1..] == a[1..] + b;
    } else {
      assert a + b == b;
    }
  }

  lemma NoOccurrences(s: string, c: char)
    requires c !in s
    ensures Occurrences(s, c) == 0
  {
  }

  /** Splitting then joining with the same separator gives back the input. */
  lemma {:induction false} JoinSplit(s: string, sep: char)
    ensures Join(Split(s, sep), sep) == s
    decreases |s|
  {
    if sep in s {
      var i := IndexOf(s, sep);
      var rest := Split(s[i + 1..], sep);
      JoinSplit(s[i + 1..], sep);
      assert Split(s, sep) == [s[..i]] + rest;
      assert ([s[..i]] + rest)[1..] == rest;
      assert s == s[..i] + [sep] + s[i + 1..];
    }
  }

  /** The first separator of `a + [sep] + b`, when `a` has none, is the one
      after `a`. */
  lemma FirstSeparator(a: string, b: string, sep: char)
    requires sep !in a
    ensures sep in a + [sep] + b
    ensures IndexOf(a + [sep] + b, sep) == |a|
    ensures (a + [sep] + b)[..|a|] == a
    ensures (a + [sep] + b)[|a| + 1..] == b
  {
    var s := a + [sep] + b;
    assert s[|a|] == sep;
    assert s[..|a|] == a;
  }

  /** Joining separator-free pieces then splitting gives back the pieces. */
  lemma {:induction false} SplitJoin(pieces: seq<string>, sep: char)
    requires |pieces| >= 1
    requires forall k :: 0 <= k < |pieces| ==> sep !in pieces[k]
    ensures Split(Join(pieces, sep), sep) == pieces
    decreases |pieces|
  {
    if |pieces| > 1 {
      var rest := pieces[1..];
      var tail := Join(rest, sep);
      var s := Join(pieces, sep);
      assert s == pieces[0] + [sep] + tail;
      FirstSeparator(pieces[0], tail, sep);
      assert Split(s, sep) == [pieces[0]] + Split(tail, sep);
      assert forall k :: 0 <= k < |rest| ==> rest[k] == pieces[k + 1];
      SplitJoin(rest, sep);
      assert pieces == [pieces[0]] + rest;
    }
  }

  /** There is one more piece than there are separators. */
  lemma {:induction false} SplitCount(s: string, sep: char)
    ensures |Split(s, sep)| == Occurrences(s, sep) + 1
    decreases |s|
  {
    if sep !in s {
      NoOccurrences(s, sep);
    } else {
      var i := IndexOf(s, sep);
      SplitCount(s[i + 1..], sep);
      assert s == s[..i] + ([sep] + s[i + 1..]);
      OccurrencesAppend(s[..i], [sep] + s[i + 1..], sep);
      OccurrencesAppend([sep], s[i + 1..], sep);
      NoOccurrences(s[..i], sep);
    }
  }

  /** Number of leading spaces of `s`. */
  function LeadingSpaces(s: string): (n: nat)
    ensures n <= |s|
    ensures forall k :: 0 <= k < n ==> s[k] == ' '
    ensures n < |s| ==> s[n] != ' '
  {
    if |s| > 0 && s[0] == ' ' then 1 + LeadingSpaces(s[1..]) else 0
  }

  /** Number of trailing spaces of `s`. */
  function TrailingSpaces(s: string): (n: nat)
    ensures n <= |s|
    ensures forall k :: |s| - n <= k < |s| ==> s[k] == ' '
    ensures n < |s| ==> s[|s| - n - 1] != ' '
  {
    if |s| > 0 && s[|s| - 1] == ' ' then 1 + TrailingSpaces(s[..|s| - 1]) else 0
  }

  /** Python's `s.strip(' ')`: the slice of `s` left after removing spaces at
      both ends. */
  function StripSpaces(s: string): (r: string)
    ensures LeadingSpaces(s) + |r| <= |s|
    ensures r == s[LeadingSpaces(s)..LeadingSpaces(s) + |r|]
    ensures forall k :: LeadingSpaces(s) + |r| <= k < |s| ==> s[k] == ' '
    ensures |r| > 0 ==> r[0] != ' ' && r[|r| - 1] != ' '
  {
    var lead := LeadingSpaces(s);
    if lead == |s| then ""
    else
      var t := TrailingSpaces(s);
      assert s[|s| - t - 1] != ' ';
      s[lead..|s| - t]
  }

  /** Stripping is idempotent: a stripped string has nothing left to strip. */
  lemma StripSpacesIdempotent(s: string)
    ensures StripSpaces(StripSpaces(s)) == StripSpaces(s)
  {
    var r := StripSpaces(s);
    if |r| > 0 {
      assert LeadingSpaces(r) == 0;
      assert TrailingSpaces(r) == 0;
      assert r[0..|r|] == r;
    }
  }
}

=== FILE: trails.dfy ===
/** Per-aircraft drawing of flight_tracker.py: the trail and connector logic
    of `draw_aircraft`, the call-sign label of `draw_callsign_labels`, and the
    visibility filter of `generate_frame`. Drawing calls become a list of
    draw operations. */
module Trails {
  import opened Geo
  import opened Optional
  import opened Text
  import opened Colors
  import opened Icons
  import opened LiveMap

  /** One `pos_history` entry: a drawn position and the colour it had. */
  datatype TrailEntry = TrailEntry(pos: Pixel, color: Rgb)

  /** The drawing calls the renderer makes on the frame. */
  datatype DrawOp =
    | Point(at: Pixel, color: Rgb)                      // frame_draw.point
    | Line(from: Pixel, to: Pixel, color: Rgb)          // frame_draw.line
    | Bitmap(icon: nat, corner: Pixel, color: Rgb)      // frame_draw.bitmap
    | Label(anchor: Pixel, text: string)                // frame_draw.text

  /** The step test of `draw_aircraft`'s trail loop: more than one pixel
      apart on either axis. */
  predicate Apart(a: Pixel, b: Pixel)
  {
    IntAbs(a.y - b.y) > 1 || IntAbs(a.x - b.x) > 1
  }

  /** How one trail entry is drawn, given the position drawn before it. */
  function TrailStep(prev: Option<Pixel>, e: TrailEntry): DrawOp
  {
    match prev
    case None => Point(e.pos, e.color)
    case Some(p) => if Apart(p, e.pos) then Line(p, e.pos, e.color) else Point(e.pos, e.color)
  }

  /** The trail loop of `draw_aircraft` over `h`, `prev` being the position
      drawn just before `h[0]`. */
  function TrailFrom(prev: Option<Pixel>, h: seq<TrailEntry>): (ops: seq<DrawOp>)
    ensures |ops| == |h|
    ensures |h| > 0 ==> ops[0] == TrailStep(prev, h[0])
    ensures forall i :: 0 < i < |h| ==> ops[i] == TrailStep(Some(h[i - 1].pos), h[i])
    ensures forall op :: op in ops ==> op.Point? || op.Line?
    decreases |h|
  {
    if |h| == 0 then []
    else [TrailStep(prev, h[0])] + TrailFrom(Some(h[0].pos), h[1..])
  }

  /** The whole trail: the first entry is a point; each later one is a line
      from its predecessor when they are apart, a point otherwise. */
  function TrailOps(h: seq<TrailEntry>): (ops: seq<DrawOp>)
    ensures |ops| == |h|
    ensures |h| > 0 ==> ops[0] == Point(h[0].pos, h[0].color)
    ensures forall i :: 0 < i < |h| ==>
              ops[i] == if Apart(h[i - 1].pos, h[i].pos) then Line(h[i - 1].pos, h[i].pos, h[i].color)
                        else Point(h[i].pos, h[i].color)
    ensures forall op :: op in ops ==> op.Point? || op.Line?
  {
    TrailFrom(None, h)
  }

  /** Drawing a trail that grew by one entry draws the old trail, then one
      more operation for the new entry. */
  lemma TrailOpsExtend(h: seq<TrailEntry>, e: TrailEntry)
    ensures TrailOps(h + [e]) ==
              TrailOps(h) + [TrailStep(if |h| == 0 then None else Some(h[|h| - 1].pos), e)]
  {
    var l := TrailOps(h + [e]);
    var r := TrailOps(h) + [TrailStep(if |h| == 0 then None else Some(h[|h| - 1].pos), e)];
    assert |l| == |r|;
    forall i | 0 <= i < |l| ensures l[i] == r[i] {
      if i < |h| {
        assert (h + [e])[i] == h[i];
        if i > 0 {
          assert (h + [e])[i - 1] == h[i - 1];
        }
      } else {
        assert (h + [e])[i] == e;
        if i > 0 {
          assert (h + [e])[i - 1] == h[i - 1];
        }
      }
    }
  }

  /** No two consecutive trail entries share a position. */
  predicate NoStutter(h: seq<TrailEntry>)
  {
    forall i :: 0 < i < |h| ==> h[i - 1].pos != h[i].pos
  }

  /** The `pos_history` update at the end of `draw_aircraft`: append only
      when the trail is empty or the position moved. */
  function AppendToTrail(h: seq<TrailEntry>, pos: Pixel, color: Rgb): (r: seq<TrailEntry>)
    ensures r == h || r == h + [TrailEntry(pos, color)]
    ensures r != h <==> (|h| == 0 || h[|h| - 1].pos != pos)
    ensures |r| > 0 && r[|r| - 1].pos == pos
    ensures NoStutter(h) ==> NoStutter(r)
  {
    if |h| == 0 || h[|h| - 1].pos != pos then h + [TrailEntry(pos, color)] else h
  }

  /** The trail after an aircraft is drawn at each of `frames` in turn. */
  function RunTrail(h: seq<TrailEntry>, frames: seq<TrailEntry>): seq<TrailEntry>
    decreases |frames|
  {
    if |frames| == 0 then h
    else RunTrail(AppendToTrail(h, frames[0].pos, frames[0].color), frames[1..])
  }

  /** However many frames are drawn, a trail started empty never holds two
      consecutive equal positions, and ends at the last drawn position. */
  lemma {:induction false} RunTrailNoStutter(h: seq<TrailEntry>, frames: seq<TrailEntry>)
    requires NoStutter(h)
    ensures NoStutter(RunTrail(h, frames))
    ensures |frames| > 0 ==>
              |RunTrail(h, frames)| > 0 &&
              RunTrail(h, frames)[|RunTrail(h, frames)| - 1].pos == frames[|frames| - 1].pos
    decreases |frames|
  {
    if |frames| > 0 {
      var h' := AppendToTrail(h, frames[0].pos, frames[0].color);
      var rest := frames[1..];
      RunTrailNoStutter(h', rest);
      assert RunTrail(h, frames) == RunTrail(h', rest);
      if |rest| > 0 {
        assert rest[|rest| - 1] == frames[|frames| - 1];
      }
    }
  }

  /** What `draw_aircraft` produces: the drawing calls and the new trail. */
  datatype Drawn = Drawn(ops: seq<DrawOp>, trail: seq<TrailEntry>)

  /** The connector test of `draw_aircraft` as written: `x_diff` takes the
      last trail entry's ROW against the new column and `y_diff` its COLUMN
      against the new row. */
  predicate CrossedApart(prev: Pixel, pos: Pixel)
  {
    IntAbs(prev.y - pos.x) > 1 || IntAbs(prev.x - pos.y) > 1
  }

  /** Whether `draw_aircraft` draws the connector: there is a trail and the
      crossed-axes test holds against its last entry. */
  predicate ConnectorDrawn(h: seq<TrailEntry>, pos: Pixel)
  {
    |h| > 0 && CrossedApart(h[|h| - 1].pos, pos)
  }

  /** The icon `plot_icon` draws, if any: one bitmap exactly when the
      heading is valid, the icon for that heading at its centred corner, in
      the aircraft's colour. */
  function IconOps(pos: Pixel, color: Rgb, track: int, iconSizes: seq<(nat, nat)>): (ops: seq<DrawOp>)
    requires |iconSizes| == 8
    ensures |ops| <= 1
    ensures |ops| == 1 <==> 0 <= track <= 360
    ensures forall op :: op in ops ==> op.Bitmap?
    ensures 0 <= track <= 360 ==>
              ops == [Bitmap(PlotIcon(pos, iconSizes, track).value.icon,
                             PlotIcon(pos, iconSizes, track).value.corner, color)]
  {
    match PlotIcon(pos, iconSizes, track)
    case None => []
    case Some(p) => [Bitmap(p.icon, p.corner, color)]
  }

  /** `draw_aircraft(x, y, frame_draw, aircraft)`: the old trail, a connector
      line to the current position when the crossed-axes test holds against
      the last trail entry, the icon (when the heading is valid), then the
      trail update. The `traces` option is not consulted. */
  function DrawAircraft(pos: Pixel, altitude: int, track: int, h: seq<TrailEntry>,
                        iconSizes: seq<(nat, nat)>): (d: Drawn)
    requires |iconSizes| == 8
    ensures |h| <= |d.ops| <= |h| + 2
    ensures d.ops[..|h|] == TrailOps(h)
    ensures d.trail == AppendToTrail(h, pos, AltitudeColor(altitude))
    // the icon comes last, exactly when the heading is valid
    ensures (0 <= track <= 360) <==> (|d.ops| > |h| && d.ops[|d.ops| - 1].Bitmap?)
    // the connector is drawn exactly when the crossed-axes test holds
    ensures ConnectorDrawn(h, pos) ==>
              |d.ops| > |h| && d.ops[|h|] == Line(h[|h| - 1].pos, pos, AltitudeColor(altitude))
    ensures !ConnectorDrawn(h, pos) ==> |d.ops| <= |h| + 1
    // no text is drawn, and past the trail there is nothing but the
    // connector and the icon
    ensures forall op :: op in d.ops ==> !op.Label?
    ensures forall op :: op in d.ops[|h|..] ==>
              op.Bitmap? || (|h| > 0 && op == Line(h[|h| - 1].pos, pos, AltitudeColor(altitude)))
    // one call for the connector when its test holds and one for the icon
    // when the heading is valid, independently of each other
    ensures |d.ops| == |h| + (if ConnectorDrawn(h, pos) then 1 else 0) + (if 0 <= track <= 360 then 1 else 0)
    // the bitmap is `plot_icon`'s icon at its centred corner, in the altitude colour
    ensures 0 <= track <= 360 ==>
              d.ops[|d.ops| - 1] == Bitmap(PlotIcon(pos, iconSizes, track).value.icon,
                                           PlotIcon(pos, iconSizes, track).value.corner,
                                           AltitudeColor(altitude))
  {
    var color := AltitudeColor(altitude);
    var line := if |h| > 0 then Line(h[|h| - 1].pos, pos, color) else Line(pos, pos, color);
    var connector := if ConnectorDrawn(h, pos) then [line] else [];
    var icon := IconOps(pos, color, track, iconSizes);
    DrawingShape(TrailOps(h), connector, icon, line);
    Drawn(TrailOps(h) + connector + icon, AppendToTrail(h, pos, color))
  }

  /** The layout of one aircraft's drawing calls: the trail's points and
      lines, at most one connector `line`, then at most one bitmap. */
  lemma DrawingShape(trail: seq<DrawOp>, connector: seq<DrawOp>, icon: seq<DrawOp>, line: DrawOp)
    requires forall op :: op in trail ==> op.Point? || op.Line?
    requires line.Line? && (connector == [] || connector == [line])
    requires |icon| <= 1 && forall op :: op in icon ==> op.Bitmap?
    ensures var ops := trail + connector + icon;
              |trail| <= |ops| <= |trail| + 2 && ops[..|trail|] == trail &&
              (|icon| == 1 <==> |ops| > |trail| && ops[|ops| - 1].Bitmap?) &&
              (connector == [line] ==> |ops| > |trail| && ops[|trail|] == line) &&
              (connector == [] ==> |ops| <= |trail| + 1) &&
              (forall op :: op in ops ==> !op.Label?) &&
              (forall op :: op in ops[|trail|..] ==> op.Bitmap? || (connector == [line] && op == line))
  {
    var ops := trail + connector + icon;
    assert ops[..|trail|] == trail;
    assert ops[|trail|..] == connector + icon;
    assert forall op :: op in ops ==> op in trail || op in connector || op in icon;
  }

  /** The path an aircraft has flown on the canvas: its trail, then the
      position it is drawn at now. */
  function Path(h: seq<TrailEntry>, pos: Pixel): (path: seq<Pixel>)
    ensures |path| == |h| + 1
    ensures forall i :: 0 <= i < |h| ==> path[i] == h[i].pos
    ensures path[|h|] == pos
  {
    seq(|h|, i requires 0 <= i < |h| => h[i].pos) + [pos]
  }

  /** Every step of `path` longer than one pixel on either axis is drawn as
      a line joining its two ends (the step into `path[i]` being `ops[i]`). */
  predicate Bridged(ops: seq<DrawOp>, path: seq<Pixel>)
  {
    forall i :: 0 < i < |path| && Apart(path[i - 1], path[i]) ==>
      i < |ops| && ops[i].Line? && ops[i].from == path[i - 1] && ops[i].to == path[i]
  }

  /** As written, the connector can leave a gap and can bridge neighbours:
      from (0, 10) to (10, 0) nothing joins the two, while from (10, 20) to
      (11, 20) a line is drawn although the positions touch. */
  lemma ConnectorCrossesAxes()
    ensures !Bridged(DrawAircraft(Pixel(10, 0), 0, -1, [TrailEntry(Pixel(0, 10), Grey)], UnitIcons()).ops,
                     Path([TrailEntry(Pixel(0, 10), Grey)], Pixel(10, 0)))
    ensures !Apart(Pixel(10, 20), Pixel(11, 20))
    ensures DrawAircraft(Pixel(11, 20), 0, -1, [TrailEntry(Pixel(10, 20), Grey)], UnitIcons()).ops ==
              [Point(Pixel(10, 20), Grey), Line(Pixel(10, 20), Pixel(11, 20), Grey)]
  {
    var h := [TrailEntry(Pixel(0, 10), Grey)];
    var path := Path(h, Pixel(10, 0));
    assert Apart(path[0], path[1]);
    var far := DrawAircraft(Pixel(10, 0), 0, -1, h, UnitIcons());
    assert |far.ops| == 1;
    var near := DrawAircraft(Pixel(11, 20), 0, -1, [TrailEntry(Pixel(10, 20), Grey)], UnitIcons());
    assert near.ops[..1] == [Point(Pixel(10, 20), Grey)];
  }

  /** Eight 1 x 1 icons. */
  function UnitIcons(): (sizes: seq<(nat, nat)>)
    ensures |sizes| == 8
  {
    [(1, 1), (1, 1), (1, 1), (1, 1), (1, 1), (1, 1), (1, 1), (1, 1)]
  }

  /** `draw_aircraft` with the connector test on the same axes as the trail
      loop, which is evidently what was meant: every step of the flown path
      longer than one pixel is joined by a line. */
  function DrawAircraftBridged(pos: Pixel, altitude: int, track: int, h: seq<TrailEntry>,
                               iconSizes: seq<(nat, nat)>): (d: Drawn)
    requires |iconSizes| == 8
    ensures |h| <= |d.ops| && d.ops[..|h|] == TrailOps(h)
    ensures d.trail == AppendToTrail(h, pos, AltitudeColor(altitude))
    ensures (0 <= track <= 360) <==> (|d.ops| > |h| && d.ops[|d.ops| - 1].Bitmap?)
    ensures Bridged(d.ops, Path(h, pos))
    // and nothing is bridged that touches
    ensures !(|h| > 0 && Apart(h[|h| - 1].pos, pos)) ==> |d.ops| <= |h| + 1
    // exactly one connector for a step that is apart, one icon for a valid heading
    ensures |d.ops| == |h| + (if |h| > 0 && Apart(h[|h| - 1].pos, pos) then 1 else 0) +
                             (if 0 <= track <= 360 then 1 else 0)
  {
    var color := AltitudeColor(altitude);
    var line := if |h| > 0 then Line(h[|h| - 1].pos, pos, color) else Line(pos, pos, color);
    var connector := if |h| > 0 && Apart(h[|h| - 1].pos, pos) then [line] else [];
    var icon := IconOps(pos, color, track, iconSizes);
    DrawingShape(TrailOps(h), connector, icon, line);
    BridgedDrawing(h, pos, TrailOps(h) + connector + icon);
    Drawn(TrailOps(h) + connector + icon, AppendToTrail(h, pos, color))
  }

  /** A drawing that starts with the trail and then the connector whenever
      the last step is apart bridges the whole path. */
  lemma BridgedDrawing(h: seq<TrailEntry>, pos: Pixel, ops: seq<DrawOp>)
    requires |ops| >= |h| && ops[..|h|] == TrailOps(h)
    requires |h| > 0 && Apart(h[|h| - 1].pos, pos) ==>
               |ops| > |h| && ops[|h|].Line? && ops[|h|].from == h[|h| - 1].pos && ops[|h|].to == pos
    ensures Bridged(ops, Path(h, pos))
  {
    var path := Path(h, pos);
    var trail := TrailOps(h);
    forall i | 0 < i < |path| && Apart(path[i - 1], path[i])
      ensures i < |ops| && ops[i].Line? && ops[i].from == path[i - 1] && ops[i].to == path[i]
    {
      if i < |h| {
        assert ops[i] == trail[i];
      }
    }
  }

  /** An aircraft as the renderer reads it. The source stores raw strings in
      the table and converts nothing, so the numbers here are taken as given. */
  datatype TrackedAircraft = TrackedAircraft(
    ident: string, lat: real, lon: real, altitude: int, track: int,
    callSign: string, trail: seq<TrailEntry>)

  /** Renderer configuration: box, canvas size, icon sizes, label switch. */
  datatype Display = Display(box: Box, cols: nat, rows: nat, iconSizes: seq<(nat, nat)>, callsignLabels: bool)

  predicate ValidDisplay(d: Display)
  {
    WellFormed(d.box) && |d.iconSizes| == 8
  }

  predicate OnCanvas(d: Display, p: Pixel)
  {
    0 <= p.x < d.cols && 0 <= p.y < d.rows
  }

  /** Points and lines lie on the canvas, and so does a label's anchor.
      Icons and label text can reach off it: an icon is centred on an
      on-canvas position but may overhang it, and the text is drawn with
      anchor "rs", so it runs left of and above its anchor. */
  predicate OpOnCanvas(d: Display, op: DrawOp)
  {
    match op
    case Point(p, _) => OnCanvas(d, p)
    case Line(a, b, _) => OnCanvas(d, a) && OnCanvas(d, b)
    case Bitmap(_, _, _) => true
    case Label(a, _) => OnCanvas(d, a)
  }

  predicate TrailOnCanvas(d: Display, h: seq<TrailEntry>)
  {
    forall i :: 0 <= i < |h| ==> OnCanvas(d, h[i].pos)
  }

  /** Where an aircraft projects on the live canvas. */
  function Position(d: Display, a: TrackedAircraft): Pixel
    requires ValidDisplay(d)
  {
    LiveProject(d.box, d.cols, d.rows, a.lat, a.lon)
  }

  /** One iteration of `generate_frame`'s loop: aircraft that project off
      the canvas are skipped; the others are drawn and, when labels are on,
      labelled with their call sign stripped of spaces. */
  function DrawOne(d: Display, a: TrackedAircraft): (r: Drawn)
    requires ValidDisplay(d)
    ensures Position(d, a) == Offscreen ==> r == Drawn([], a.trail)
    ensures Position(d, a) != Offscreen ==>
              r.trail == AppendToTrail(a.trail, Position(d, a), AltitudeColor(a.altitude))
    // an aircraft on the canvas is drawn trail first, label last
    ensures Position(d, a) != Offscreen ==>
              |r.ops| >= |a.trail| && r.ops[..|a.trail|] == TrailOps(a.trail) &&
              (d.callsignLabels <==> |r.ops| > 0 && r.ops[|r.ops| - 1].Label?) &&
              (d.callsignLabels ==> r.ops[|r.ops| - 1] == Label(Position(d, a), StripSpaces(a.callSign)))
    // between them come `draw_aircraft`'s calls: trail, connector and icon
    ensures Position(d, a) != Offscreen ==>
              var drawn := DrawAircraft(Position(d, a), a.altitude, a.track, a.trail, d.iconSizes).ops;
              |drawn| <= |r.ops| <= |drawn| + 1 && r.ops[..|drawn|] == drawn
  {
    var pos := Position(d, a);
    if pos.x >= 0 && pos.y >= 0 then
      var drawn := DrawAircraft(pos, a.altitude, a.track, a.trail, d.iconSizes);
      var tag := if d.callsignLabels then [Label(pos, StripSpaces(a.callSign))] else [];
      var ops := drawn.ops + tag;
      assert ops[..|a.trail|] == drawn.ops[..|a.trail|];
      Drawn(ops, drawn.trail)
    else
      Drawn([], a.trail)
  }

  /** A trail on the canvas is drawn on the canvas. */
  lemma TrailOpsOnCanvas(d: Display, h: seq<TrailEntry>)
    requires TrailOnCanvas(d, h)
    ensures forall op :: op in TrailOps(h) ==> OpOnCanvas(d, op)
  {
    var ops := TrailOps(h);
    forall op | op in ops ensures OpOnCanvas(d, op) {
      var i :| 0 <= i < |ops| && ops[i] == op;
      if i > 0 {
        assert OnCanvas(d, h[i - 1].pos);
      }
      assert OnCanvas(d, h[i].pos);
    }
  }

  /** Drawing at an on-canvas position with an on-canvas trail draws only
      icons off the canvas, and keeps the trail on the canvas. */
  lemma DrawAircraftOnCanvas(d: Display, pos: Pixel, altitude: int, track: int, h: seq<TrailEntry>)
    requires |d.iconSizes| == 8 && OnCanvas(d, pos) && TrailOnCanvas(d, h)
    ensures forall op :: op in DrawAircraft(pos, altitude, track, h, d.iconSizes).ops ==> OpOnCanvas(d, op)
    ensures TrailOnCanvas(d, DrawAircraft(pos, altitude, track, h, d.iconSizes).trail)
  {
    var drawn := DrawAircraft(pos, altitude, track, h, d.iconSizes);
    var trail := TrailOps(h);
    var extra := drawn.ops[|h|..];
    TrailOpsOnCanvas(d, h);
    assert drawn.ops == trail + extra;
    forall op | op in extra
      ensures OpOnCanvas(d, op)
    {
      if !op.Bitmap? {
        assert |h| > 0 && op == Line(h[|h| - 1].pos, pos, AltitudeColor(altitude));
        assert OnCanvas(d, h[|h| - 1].pos);
      }
    }
    assert forall op :: op in drawn.ops ==> op in trail || op in extra;
    AppendOnCanvas(d, h, pos, AltitudeColor(altitude));
  }

  lemma AppendOnCanvas(d: Display, h: seq<TrailEntry>, pos: Pixel, color: Rgb)
    requires OnCanvas(d, pos) && TrailOnCanvas(d, h)
    ensures TrailOnCanvas(d, AppendToTrail(h, pos, color))
  {
    var r := AppendToTrail(h, pos, color);
    if r != h {
      assert forall i :: 0 <= i < |h| ==> r[i] == h[i];
    }
  }

  /** Drawing an aircraft whose trail is on the canvas keeps its points,
      lines and label anchor on the canvas (icons and label text can reach
      off it), and keeps its trail on the canvas. */
  lemma DrawOneOnCanvas(d: Display, a: TrackedAircraft)
    requires ValidDisplay(d) && TrailOnCanvas(d, a.trail)
    ensures TrailOnCanvas(d, DrawOne(d, a).trail)
    ensures forall op :: op in DrawOne(d, a).ops ==> OpOnCanvas(d, op)
  {
    var pos := Position(d, a);
    if pos != Offscreen {
      DrawAircraftOnCanvas(d, pos, a.altitude, a.track, a.trail);
    }
  }

  /** The frame drawn by `generate_frame` and each aircraft with its new trail. */
  datatype Frame = Frame(ops: seq<DrawOp>, aircraft: seq<TrackedAircraft>)

  /** The calls of several drawings, one after the other. */
  function Flatten(opss: seq<seq<DrawOp>>): seq<DrawOp>
    decreases |opss|
  {
    if |opss| == 0 then [] else opss[0] + Flatten(opss[1..])
  }

  lemma {:induction false} FlattenAppend(a: seq<seq<DrawOp>>, b: seq<seq<DrawOp>>)
    ensures Flatten(a + b) == Flatten(a) + Flatten(b)
    decreases |a|
  {
    if |a| == 0 {
      assert a + b == b;
    } else {
      assert (a + b)[0] == a[0];
      assert (a + b)[1..] == a[1..] + b;
      FlattenAppend(a[1..], b);
    }
  }

  lemma {:induction false} FlattenOnCanvas(d: Display, opss: seq<seq<DrawOp>>)
    requires forall i, op :: 0 <= i < |opss| && op in opss[i] ==> OpOnCanvas(d, op)
    ensures forall op :: op in Flatten(opss) ==> OpOnCanvas(d, op)
    decreases |opss|
  {
    if |opss| > 0 {
      var rest := opss[1..];
      assert forall i :: 0 <= i < |rest| ==> rest[i] == opss[i + 1];
      FlattenOnCanvas(d, rest);
    }
  }

  /** Each aircraft's drawing calls, in the order of `planes`, which
      stands for the table's keys in insertion order. */
  function AircraftDraws(d: Display, planes: seq<TrackedAircraft>): (opss: seq<seq<DrawOp>>)
    requires ValidDisplay(d)
    ensures |opss| == |planes|
    ensures forall i :: 0 <= i < |planes| ==> opss[i] == DrawOne(d, planes[i]).ops
  {
    seq(|planes|, i requires 0 <= i < |planes| => DrawOne(d, planes[i]).ops)
  }

  /** The drawing calls of `generate_frame`'s loop, aircraft by aircraft. */
  function FrameDraws(d: Display, planes: seq<TrackedAircraft>): seq<DrawOp>
    requires ValidDisplay(d)
  {
    Flatten(AircraftDraws(d, planes))
  }

  /** Each aircraft after its iteration of `generate_frame`'s loop. */
  function AdvanceTrails(d: Display, planes: seq<TrackedAircraft>): (moved: seq<TrackedAircraft>)
    requires ValidDisplay(d)
    ensures |moved| == |planes|
    ensures forall i :: 0 <= i < |planes| ==> moved[i] == planes[i].(trail := DrawOne(d, planes[i]).trail)
    decreases |planes|
  {
    if |planes| == 0 then []
    else
      var rest := AdvanceTrails(d, planes[1..]);
      var moved := [planes[0].(trail := DrawOne(d, planes[0]).trail)] + rest;
      assert forall i :: 0 < i < |planes| ==> moved[i] == rest[i - 1] && planes[i] == planes[1..][i - 1];
      moved
  }

  /** `generate_frame` over the aircraft listed in `planes`, which stands
      for `aircraft_table.keys()` in the dict's insertion order. */
  function GenerateFrame(d: Display, planes: seq<TrackedAircraft>): (f: Frame)
    requires ValidDisplay(d)
    ensures |f.aircraft| == |planes|
    // each aircraft is advanced on its own: only its trail changes, and only
    // when it is on the canvas
    ensures forall i :: 0 <= i < |planes| ==> f.aircraft[i] == planes[i].(trail := DrawOne(d, planes[i]).trail)
  {
    Frame(FrameDraws(d, planes), AdvanceTrails(d, planes))
  }

  /** A frame of one aircraft draws exactly what that aircraft's iteration
      of the loop draws. */
  lemma GenerateFrameOne(d: Display, a: TrackedAircraft)
    requires ValidDisplay(d)
    ensures GenerateFrame(d, [a]).ops == DrawOne(d, a).ops
  {
    assert AircraftDraws(d, [a]) == [DrawOne(d, a).ops];
    FlattenOne(DrawOne(d, a).ops);
  }

  lemma FlattenOne(ops: seq<DrawOp>)
    ensures Flatten([ops]) == ops
  {
    assert [ops][1..] == [];
    assert ops + [] == ops;
  }

  /** The frame is drawn in the order of the listed aircraft: those of `xs`
      are drawn before, and so beneath, those of `ys`. */
  lemma GenerateFrameAppend(d: Display, xs: seq<TrackedAircraft>, ys: seq<TrackedAircraft>)
    requires ValidDisplay(d)
    ensures GenerateFrame(d, xs + ys).ops == GenerateFrame(d, xs).ops + GenerateFrame(d, ys).ops
  {
    var zs := xs + ys;
    assert AircraftDraws(d, zs) == AircraftDraws(d, xs) + AircraftDraws(d, ys) by {
      assert forall i :: 0 <= i < |zs| ==> zs[i] == if i < |xs| then xs[i] else ys[i - |xs|];
    }
    FlattenAppend(AircraftDraws(d, xs), AircraftDraws(d, ys));
  }

  /** After a frame, an aircraft off the canvas keeps its trail and one on it
      has its position appended (unless it did not move). */
  lemma FrameTrails(d: Display, planes: seq<TrackedAircraft>, i: int)
    requires ValidDisplay(d) && 0 <= i < |planes|
    ensures GenerateFrame(d, planes).aircraft[i].ident == planes[i].ident
    ensures Position(d, planes[i]) == Offscreen ==>
              GenerateFrame(d, planes).aircraft[i].trail == planes[i].trail
    ensures Position(d, planes[i]) != Offscreen ==>
              GenerateFrame(d, planes).aircraft[i].trail ==
                AppendToTrail(planes[i].trail, Position(d, planes[i]), AltitudeColor(planes[i].altitude))
  {
  }

  /** With trails that start on the canvas, a frame keeps its points, lines
      and label anchors on the canvas (icons and label text can reach off
      it), and every trail stays on the canvas. */
  lemma FrameOnCanvas(d: Display, planes: seq<TrackedAircraft>)
    requires ValidDisplay(d)
    requires forall i :: 0 <= i < |planes| ==> TrailOnCanvas(d, planes[i].trail)
    ensures forall op :: op in GenerateFrame(d, planes).ops ==> OpOnCanvas(d, op)
    ensures forall i :: 0 <= i < |planes| ==> TrailOnCanvas(d, GenerateFrame(d, planes).aircraft[i].trail)
  {
    var opss := AircraftDraws(d, planes);
    forall i | 0 <= i < |planes|
      ensures TrailOnCanvas(d, DrawOne(d, planes[i]).trail)
      ensures forall op :: op in opss[i] ==> OpOnCanvas(d, op)
    {
      DrawOneOnCanvas(d, planes[i]);
    }
    FlattenOnCanvas(d, opss);
  }
}
